=== FILE: README.md ===
# LinguaPath core, modelled in Dafny

LinguaPath is a browser app for learning English through a curriculum. The learner
is placed at a CEFR level (A1 to C2). They work through lessons grouped in units
and modules, and earn XP as they go. Everything is kept in the browser's
localStorage under one key. Speech is synthesised by a web worker that runs the
Kokoro text-to-speech model and hands back WAV files.

This project models the following parts and proves properties about each:

- **The speech worker** (`src/workers/kokoro.worker.ts`), in modules `Bytes`, `Wav` and `Worker`.
  - The 44-byte WAV header and its little-endian fields.
  - Sample clamping and asymmetric scaling into 16-bit PCM.
  - `initializeKokoro` and `generateAudio`, with the progress reports each posts.
  - The `onmessage` dispatcher: LOAD_MODEL, GENERATE_AUDIO and TERMINATE. Every failure becomes a single ERROR reply.
  - The speech library is an `Engine` value of two functions supplied by the caller.
- **The store** (`src/lib/store.ts`), in modules `Domain`, `Lists` and `Store`.
  - Loading with defaults, and partial updates.
  - Curriculum upsert and removal.
  - Lesson completion, the completion percentage and lesson unlocking.
  - Clearing the data.
  - Storage is an `Option<AppState>`. The current date is a parameter.
- **The decision logic of four pages**:
  - Onboarding (`Onboarding`): the placement test, the level recommendation and the buttons of each step.
  - Import (`ImportPage`): file-name and schema validation, then import and delete.
  - Settings (`Settings`): level change, progress reset and the two-press clear.
  - Dashboard (`Dashboard`): total lessons completed, the "continue" curriculum and its percentage, and the daily challenge.

Three facts about the worker code shape the model:

- Generation is one `generate` call on the whole text. Nothing is chunked and no silence is inserted.
- LOAD_MODEL has no reload guard. Every request whose library import succeeds loads the model again. `Worker.WorkerState.acquisitions` counts these loads.
- TERMINATE is the only thing that clears the session.

## Model

| member | source | states |
|---|---|---|
| Bytes.Le16RoundTrip | src/workers/kokoro.worker.ts:95-100 | a 16-bit little-endian field reads back as the value modulo 2^16 (the setter's ToUint16) |
| Bytes.Le32RoundTrip | src/workers/kokoro.worker.ts:91-102 | a 32-bit little-endian field reads back as the value modulo 2^32 (the setter's ToUint32) |
| Bytes.Le16ReadBack | src/workers/kokoro.worker.ts:95-100 | writing back a 16-bit value that was read reproduces the two bytes |
| Bytes.Le32ReadBack | src/workers/kokoro.worker.ts:91-102 | writing back a 32-bit value that was read reproduces the four bytes |
| Bytes.Int16RoundTrip | src/workers/kokoro.worker.ts:66-69 | every value in the signed 16-bit range is recovered by the two's-complement reader of an `Int16Array` element |
| Bytes.Ascii | src/workers/kokoro.worker.ts:78-82 | `writeString` writes one byte per character, the character code |
| Wav.TagsAreAscii | src/workers/kokoro.worker.ts:90-101 | the four tags written are the ASCII bytes of "RIFF", "WAVE", "fmt " and "data" |
| Wav.WavHeader | src/workers/kokoro.worker.ts:74-105 | the header is 44 bytes. It carries the four tags at offsets 0, 8, 12 and 36. Its fields read back as: chunk size 36 + 2n; fmt size 16; format 1; one channel; the sample rate; byte rate 2·rate; block align 2; 16 bits per sample; data size 2n (sizes modulo 2^32) |
| Wav.HeaderRoundTrip | src/workers/kokoro.worker.ts:84-102 | a reader of the canonical header accepts it and recovers mono 16-bit PCM at the given rate with the sizes of n samples |
| Wav.Clamp | src/workers/kokoro.worker.ts:68 | the sample is clamped into [-1, 1] and left alone when already inside |
| Wav.Trunc | src/workers/kokoro.worker.ts:69 | storing into an `Int16Array` truncates toward zero |
| Wav.Quantize | src/workers/kokoro.worker.ts:68-69 | every PCM value lies in [-32768, 32767] and keeps the sign of the sample. For a negative clamped sample s the value v satisfies v − 1 < 32768·s ≤ v; otherwise v ≤ 32767·s < v + 1. Both say the scaled value is truncated toward zero |
| Wav.QuantizeLandmarks | src/workers/kokoro.worker.ts:68-69 | -1 and below give -32768, 0 gives 0, and 1 and above give 32767: the asymmetric scale reaches both ends |
| Wav.QuantizeWithinOneStep | src/workers/kokoro.worker.ts:68-69 | inverse scaling recovers each in-range sample to within one quantisation step (1/32767) |
| Wav.QuantizeMonotone | src/workers/kokoro.worker.ts:68-69 | a larger sample never gives a smaller PCM value |
| Wav.PcmBytes | src/workers/kokoro.worker.ts:65-72 | the PCM buffer has two bytes per sample |
| Wav.PcmBytesAt | src/workers/kokoro.worker.ts:66-70 | the i-th quantised sample sits at byte offset 2i |
| Wav.PcmRoundTrip | src/workers/kokoro.worker.ts:65-72 | reading the PCM buffer back yields exactly the quantised samples, in order |
| Wav.FloatTo16BitPCM | src/workers/kokoro.worker.ts:65-72 | the loop writes one Int16 per input sample, and each reads back as that sample quantised |
| Wav.EncodeWav | src/workers/kokoro.worker.ts:159-164 | the file is 44 + 2n bytes: the 24 kHz header for n samples, followed by the PCM data |
| Wav.ParseHeaderReadsPrefix | src/workers/kokoro.worker.ts:162-164 | the header reader depends only on the first 44 bytes, so the PCM data cannot disturb it |
| Wav.WavRoundTrip | src/workers/kokoro.worker.ts:159-164 | decoding an encoded file recovers the header describing the data and every quantised sample |
| Worker.Round | src/workers/kokoro.worker.ts:130 | `Math.round` gives an integer within one half of its argument |
| Worker.DownloadProgress | src/workers/kokoro.worker.ts:126-134 | the forwarded download reports are loading-status PROGRESS messages reading "Downloading model...", at most one per library report |
| Worker.DownloadProgressAppend | src/workers/kokoro.worker.ts:126-134 | forwarding goes report by report and keeps their order |
| Worker.DownloadProgressSingle | src/workers/kokoro.worker.ts:127-133 | a library report is forwarded, rounded, exactly when its status is "progress" and its progress is truthy (`ForwardsProgress`) |
| Worker.InitializeKokoro | src/workers/kokoro.worker.ts:115-138 | only loading reports are posted. A failed library import posts none. The load succeeds exactly when the library loads the model, and a failure carries the library's message. Once the import succeeds, the posted reports are the 5, then the library's download reports as forwarded by `DownloadProgress`, then the 100 only on success |
| Worker.GenerateAudioOp | src/workers/kokoro.worker.ts:140-169 | with no session it fails with "Model not loaded" and posts nothing. Otherwise it posts 10. It succeeds exactly when synthesis yields samples, and then posts 90 and 100 and returns the 24 kHz header followed by the PCM bytes. On failure only 10 was posted, and the error is the thrown message, "Kokoro.generate returned undefined" or "Invalid audio samples" |
| Worker.VoiceOrDefault | src/workers/kokoro.worker.ts:194 | an absent or empty voice becomes "af_heart", and a non-empty voice is kept |
| Worker.Handle | src/workers/kokoro.worker.ts:173-211 | TERMINATE clears the session, closes the worker and replies nothing. Any other message gets progress reports and then exactly one MODEL_READY, AUDIO_READY or ERROR. GENERATE_AUDIO leaves the state alone. Only a successful load or TERMINATE changes the session. The load count never decreases |
| Worker.Run | src/workers/kokoro.worker.ts:173-211 | a closed worker answers nothing. The worker ends closed exactly when it was closed or the messages include TERMINATE. The load count never decreases |
| Worker.GenerateBeforeLoad | src/workers/kokoro.worker.ts:145 | GENERATE_AUDIO before any model is loaded replies with the single error "Model not loaded" |
| Worker.GenerateSucceeds | src/workers/kokoro.worker.ts:147-199 | successful generation posts 10, 90 and 100 and then AUDIO_READY with the encoded file |
| Worker.GenerateFails | src/workers/kokoro.worker.ts:149-155 | a failed synthesis posts 10 and then one ERROR, and never audio. The ERROR carries the thrown message, "Kokoro.generate returned undefined" or "Invalid audio samples", case by case |
| Worker.LoadReplies | src/workers/kokoro.worker.ts:187-190 | MODEL_READY is the last reply exactly when the load succeeded, after the 5 and 100 reports. The session becomes the loaded model. A failed load keeps the old session and ends in ERROR with the library's message. A failed import replies with that ERROR alone. Between the 5 and the final reply come the forwarded download reports, and the 100 on success |
| Worker.ReloadAcquiresAgain | src/workers/kokoro.worker.ts:123 | two LOAD_MODEL requests load the model twice |
| Worker.TerminateIsFinal | src/workers/kokoro.worker.ts:200-203 | after TERMINATE the session is gone and no later message gets a reply |
| Worker.AudioOnlyAfterReady | src/workers/kokoro.worker.ts:145 | starting without a session, every AUDIO_READY in the reply stream comes after some MODEL_READY |
| Worker.FreshWorkerAudioAfterReady | src/workers/kokoro.worker.ts:61 | a fresh worker (no session) never posts audio before the model was reported ready |
| Domain.Rank | src/lib/config.ts:12 | a level's rank is its position in `LEVEL_ORDER` |
| Domain.ParseLevel | src/app/import/page.tsx:38-39 | a recognised string is exactly the name of the level returned |
| Domain.LevelNameRoundTrip | src/types/curriculum.ts:1 | every level's name (`LevelName`, the string form of `CEFRLevel`) is recognised as that level |
| Domain.SampleCurriculumHasEightLessons | src/lib/sampleData.ts:3-246 | the bundled curriculum has eight lessons, counted with `AllLessons`/`UnitLessons` as `modules.flatMap(m => m.units.flatMap(u => u.lessons))` does |
| Lists.FindFirst | src/lib/store.ts:56 | `find` returns the first index satisfying the predicate, or -1 when none does |
| Lists.FindFirstIs | src/lib/store.ts:90 | an index that satisfies the predicate, with none before it, is the one `find` returns |
| Lists.Filter | src/lib/store.ts:69-70 | `filter` keeps exactly the elements satisfying the predicate and never grows the list |
| Lists.FilterAppend | src/lib/store.ts:69-70 | filtering distributes over concatenation |
| Lists.FilterKeepsAll | src/lib/store.ts:69-70 | filtering a list whose every element passes returns it unchanged |
| Lists.FilterDistinctKeys | src/lib/store.ts:69-70 | filtering keeps distinct ids distinct |
| Store.DefaultState | src/lib/store.ts:6-17 | a new learner is at B2 with no XP, no streak and no progress, has not finished onboarding, and holds only the bundled curriculum |
| Store.LoadState | src/lib/store.ts:19-32 | empty storage is filled with the default state, which is returned. Otherwise the stored state is returned. Afterwards storage always holds the returned state |
| Store.LoadStateStable | src/lib/store.ts:19-32 | once a state is stored, later loads change nothing and do not depend on the date |
| Store.Merge | src/lib/store.ts:41 | each field takes the update's value when the update has one, and keeps the current value otherwise |
| Store.MergeLaws | src/lib/store.ts:39-44 | an empty update changes nothing, and applying an update twice is the same as applying it once |
| Store.UpdateState | src/lib/store.ts:39-44 | the merged state is both saved and returned |
| Store.SetLevel | src/lib/store.ts:46-48 | only the level of the loaded state changes |
| Store.CompleteOnboarding | src/lib/store.ts:50-52 | the chosen level is set and onboarding marked complete; nothing else changes |
| Store.Upsert | src/lib/store.ts:56-63 | with a matching id, every curriculum with that id is replaced in place and the length is kept. Otherwise the curriculum is appended |
| Store.UpsertThenFind | src/lib/store.ts:54-65 | after adding, looking the id up finds the added curriculum |
| Store.UpsertKeepsOthers | src/lib/store.ts:54-65 | curricula with other ids keep their contents and order |
| Store.UpsertSameOthers | src/lib/store.ts:58-60 | replacing elements with one id leaves the other ids' list unchanged |
| Store.UpsertIdempotent | src/lib/store.ts:54-65 | adding the same curriculum again changes nothing |
| Store.UpsertDistinct | src/lib/store.ts:54-65 | adding keeps curriculum ids distinct |
| Store.RemoveUndoesAdd | src/lib/store.ts:54-72 | removing a newly added curriculum's id gives back the original list |
| Store.AddCurriculum | src/lib/store.ts:54-65 | the added curriculum is found by its id, the others are kept in order, and the rest of the state is untouched |
| Store.RemoveCurriculumFrom | src/lib/store.ts:67-72 | no curriculum or progress record with the id remains. Every other one is kept, nothing else is added or changed, and order is kept: what survives of any prefix of either list is a prefix of the result |
| Store.RemoveKeepsOrder | src/lib/store.ts:69-70 | removal works piecewise over both lists: removing from a concatenation of curricula, or of progress records, concatenates the removals from each part, so the survivors keep their original order |
| Store.RemoveCurriculum | src/lib/store.ts:67-72 | the saved state has no curriculum or progress record with the id. Every other one is kept, and the other fields are unchanged. The saved lists are exactly the loaded lists filtered by id, in order (`Lists.Filter`) |
| Store.LessonProgressIn | src/lib/store.ts:79-81 | the entry comes from the first record for the curriculum: its entry for the lesson when it has one, and null when it has none. With no record for the curriculum the result is null |
| Store.GetLessonProgress | src/lib/store.ts:74-82 | the lookup runs on the loaded state, and loading may store the defaults |
| Store.CompleteLessonIn | src/lib/store.ts:89-100 | the XP grows by the lesson's XP and the lesson reads back as the completed entry (`CompletedEntry`: completed, the XP, the time). A first completion in a curriculum appends a record for it; otherwise the record count is kept. Only progress and XP change |
| Store.CompleteLessonFrame | src/lib/store.ts:95-99 | completing one lesson leaves every other lesson's progress unchanged |
| Store.FrameAppended | src/lib/store.ts:91-94 | appending a record for a new curriculum does not change lookups for other curricula |
| Store.FrameUpdated | src/lib/store.ts:95 | updating one curriculum's record does not change lookups for other curricula |
| Store.CompleteLessonDistinct | src/lib/store.ts:90-94 | completing a lesson never creates a second record for a curriculum |
| Store.CompleteLesson | src/lib/store.ts:84-102 | the saved state has the XP raised and the lesson completed, and nothing else changed |
| Store.RoundedPercent | src/lib/store.ts:115 | the result is within one half of 100·completed/total. It is at most 100 when completed ≤ total, and exactly 100 when they are equal |
| Store.PercentBounds | src/lib/store.ts:115 | integer round-half-up brackets the exact percentage |
| Store.GetCurriculumProgress | src/lib/store.ts:104-116 | the result is 0 with no record or no lessons. Otherwise it is the rounded share of completed entries. It is at most 100 when no more entries are completed than the curriculum has lessons |
| Store.PercentCanExceedHundred | src/lib/store.ts:110-115 | completed entries for lessons the curriculum no longer has can push the percentage to 200 |
| Store.IsLessonUnlockedIn | src/lib/store.ts:118-127 | lesson 0 is always unlocked. Lesson i ≥ 1 is unlocked exactly when lesson i−1 of the list is recorded as completed |
| Store.CompleteUnlocksNext | src/lib/store.ts:84-127 | completing lesson i unlocks lesson i+1 |
| Store.CompletionNeverLocks | src/lib/store.ts:84-127 | completing a lesson never locks a lesson that was unlocked |
| Store.IsLessonUnlocked | src/lib/store.ts:118-127 | lesson 0 is unlocked at once, without loading, so storage is left exactly as it was. For any other lesson the check runs on the loaded state, and loading may store the defaults |
| Store.ClearAllData | src/lib/store.ts:129-132 | storage is left empty |
| Dashboard.DailyChallengeIndex | src/app/dashboard/page.tsx:24 | the challenge index is the weekday modulo the five challenges, so always a valid index |
| Dashboard.TotalCountsEachRecord | src/app/dashboard/page.tsx:35-37 | the completed-lesson total (`TotalLessonsCompleted`, the `reduce` over the records) is at least each record's completed count, and is 0 when no record has a completed entry |
| Dashboard.TotalAppend | src/app/dashboard/page.tsx:35-37 | the completed-lesson total adds up over concatenated progress lists |
| Dashboard.TotalUpdate | src/app/dashboard/page.tsx:35-37 | replacing one record changes the total by the difference of the records' completed counts |
| Dashboard.CompletedCountAfterMark | src/lib/store.ts:95-99 | marking a lesson completed adds one to its record's count (`CompletedCount`, the entries with `completed` set, store.ts:114), unless it was already completed |
| Dashboard.CompleteLessonCounts | src/app/dashboard/page.tsx:35-37 | completing a lesson raises the dashboard total by one exactly when it was not completed before |
| Dashboard.ContinueCurriculum | src/app/dashboard/page.tsx:39-45 | the last lesson's curriculum when it still exists (the first one with that id, as `find` picks), otherwise the first curriculum, and none when there are none |
| Dashboard.ContinueProgress | src/app/dashboard/page.tsx:40-48 | the percentage is 0 without a curriculum, and otherwise that curriculum's progress |
| Dashboard.FreshLearnerDashboard | src/app/dashboard/page.tsx:35-48 | a new learner sees the bundled curriculum, nothing completed, and 0 % |
| Dashboard.FirstLessonOfSample | src/app/dashboard/page.tsx:35-48 | after a new learner completes the first bundled lesson the dashboard shows one lesson and 13 % (1 of 8 rounded half up) |
| Settings.OpenSettings | src/app/settings/page.tsx:20-25 | the page keeps a view exactly when onboarding is complete, and that view is the loaded state. Otherwise it sends the learner to onboarding |
| Settings.ChangeLevel | src/app/settings/page.tsx:27-34 | only the level changes, and the view is saved. Without a view nothing happens |
| Settings.ResetProgress | src/app/settings/page.tsx:36-43 | progress, XP, streak and last lesson are cleared, the curricula, level, onboarding flag and date are kept, and the view is saved |
| Settings.HandleClearAll | src/app/settings/page.tsx:45-49 | an unarmed press only arms the confirmation. An armed press empties storage and goes to onboarding. Storage changes only when armed |
| Settings.ClearNeedsTwoPresses | src/app/settings/page.tsx:45-49 | one press leaves storage alone and a second press clears it |
| Settings.ResetForgetsProgress | src/app/settings/page.tsx:36-43 | after a reset the total is 0, every curriculum is at 0 %, and only lesson 0 is unlocked |
| Settings.SavedStateReloads | src/app/settings/page.tsx:29-40 | reloading storage after a level change or reset gives back what the page shows |
| Onboarding.RecommendLevel | src/app/onboarding/page.tsx:23-31 | for 10 questions: 0-2 correct give A1, 3 gives A2, 4-5 B1, 6-7 B2, 8 C1, and 9-10 C2 |
| Onboarding.RecommendLevelMonotone | src/app/onboarding/page.tsx:23-31 | more correct answers never recommend a lower level |
| Onboarding.RecommendLevelExtremes | src/app/onboarding/page.tsx:23-31 | no correct answers give A1 and all correct give C2 |
| Onboarding.HandleAnswer | src/app/onboarding/page.tsx:33-38 | an answer is ignored while the explanation shows. Otherwise it is recorded, the explanation shown, and the score raised by one exactly when the answer is correct |
| Onboarding.NextQuestion | src/app/onboarding/page.tsx:40-48 | moves to the next question with the answer cleared, or to the result after the last one |
| Onboarding.Finish | src/app/onboarding/page.tsx:50-53 | onboarding is stored as complete with exactly the chosen level. Every other field of the loaded state is kept |
| Onboarding.Dispatch | src/app/onboarding/page.tsx:55-209 | a click keeps the score within the questions answered and raises it by at most one. Storage changes only by finishing |
| Onboarding.Clicks | src/app/onboarding/page.tsx:55-209 | any click sequence keeps the score invariant |
| Onboarding.ScoreBounded | src/app/onboarding/page.tsx:33-38 | however the learner clicks, the score never exceeds the ten questions |
| Onboarding.FinishStoresRecommendation | src/app/onboarding/page.tsx:193-196 | finishing from the result stores the level recommended for the score |
| Onboarding.ClickEffects | src/app/onboarding/page.tsx:65-199 | each rendered button does its job. Get started leads to the choice; the two choice buttons lead to the test or the manual pick; a level button sets the manual level; start finishes with the manual level; an option button applies `handleAnswer`; next applies `nextQuestion` only once the explanation shows; the result's buttons finish with the recommended level or go to the manual pick |
| Onboarding.ManualPathStoresPick | src/app/onboarding/page.tsx:65-130 | from the welcome screen, get started, then "I know my level", a level and start store exactly that level with onboarding complete, and the rest of the loaded state unchanged |
| Onboarding.StepTransitions | src/app/onboarding/page.tsx:55-209 | the only step changes are welcome→choice, choice→test or manual, test→result, and result→manual |
| ImportPage.Field | src/app/import/page.tsx:34-36 | a property read is defined exactly for a key of an object, and then returns that key's value |
| ImportPage.ValidateIsWellFormed | src/app/import/page.tsx:32-41 | the page's step-by-step checks (`ValidateCurriculum`) accept exactly an object whose `curriculum` object has a truthy id and title, a level name and a modules array |
| ImportPage.ParseLevelNonEmpty | src/app/import/page.tsx:36-39 | a level name is never the empty string |
| ImportPage.ValidationIsShallow | src/app/import/page.tsx:32-41 | a numeric id and arbitrary module contents pass. An empty id, a lower-case level, a non-array `modules` or a top-level array fail |
| ImportPage.OpenImport | src/app/import/page.tsx:26-30 | the page starts idle with no file. It keeps a view exactly when onboarding is complete, and that view is the loaded state |
| ImportPage.HandleFile | src/app/import/page.tsx:43-64 | a file is held and the status valid exactly when the name ends in ".json", it parses, and it validates. Each refusal has its own message and keeps any earlier file |
| ImportPage.WrongNameIgnoresContents | src/app/import/page.tsx:44-46 | a wrongly named file is refused whatever it contains |
| ImportPage.HandleImport | src/app/import/page.tsx:66-74 | without a held file nothing happens. Otherwise the first stored curriculum with the imported id is the imported one (an older one is replaced), the curricula with other ids are the same list in order, nothing else in the state changes, and the page returns to idle with no file |
| ImportPage.Cancel | src/app/import/page.tsx:157 | cancelling drops the held file and returns to idle |
| ImportPage.HandleDelete | src/app/import/page.tsx:76-81 | the curriculum and its progress leave storage. The other curricula and the other curricula's progress records stay, in order, and nothing else in the state changes |
| ImportPage.ImportThenDelete | src/app/import/page.tsx:66-81 | importing a file and deleting its curriculum leaves exactly the other curricula, in order |

## Left out

- Reading and writing localStorage, `JSON.stringify`/`JSON.parse` of the state, and the server-side `typeof window` checks are not modelled. Storage is an `Option<AppState>`. A stored text that fails to parse, which `loadState` answers with defaults without saving, is not represented.
- `getStorageSize` (src/lib/store.ts:134-140) is display formatting of a byte count and is left out.
- The wall clock: `new Date()` values are `today`/`now` string parameters, and the weekday is a `nat`.
- Floating point: samples, percentages and the placement ratio are exact reals or integers. NaN, infinities and binary rounding are not modelled.
- Store.RoundedPercent: computes `Math.round` over exact rationals, not over the rounded product a double gives. A ratio within one rounding error of a half may round differently in JavaScript.
- Onboarding.RecommendLevel: compares `100·correct` with the thresholds times ten exactly, whereas JavaScript compares the double `correct / 10`. The two agree for 0 to 10 correct answers.
- Wav.FloatTo16BitPCM: assumes a little-endian host, the byte order `Int16Array` uses on every platform the app targets.
- The speech library itself (`kokoro-js`): how it downloads, caches and runs the model. The `Engine` parameter stands in for it. Its `q8`/`wasm` options are not represented.
- Asynchrony of the worker: each message is handled to completion before the next. Overlapping `onmessage` handlers, which the browser allows while one awaits, are not modelled.
- `postMessage` buffer transfer and `self.close()`: a reply is a list entry, and closing stops later messages from being handled.
- A TypeScript `Partial` whose field is explicitly `undefined`, which the spread would copy over the stored value, is not modelled. An absent field and `None` are the same.
- React rendering, routing, toasts and the `linguapath-state-update` event (`dispatchStateUpdate`) are not modelled. Only the state changes and the navigation decisions are.
- The mount effects of the dashboard page are not modelled: they redirect just as the settings and import pages do.
- Lesson content, descriptions, explanations and the placement questions' texts are not modelled. Only ids, titles, levels, XP, lesson types and the placement answers are.
- ImportPage.Field: an array value's own properties (`length`, index keys) are not modelled. The validator reads none of them.
- ImportPage.HandleImport: stores whatever typed view (`asCurriculum`) the page takes of the validated JSON. The unchecked cast means nothing is proved about fields the validator does not look at.
- The lesson page's use of the store, and the worker's client wrapper, are not part of this model.

=== FILE: bytes.dfy ===
/** Little-endian integer fields as written by `DataView.setUint16/setUint32(offset, v, true)`. */
module Bytes {

  type Byte = b: int | 0 <= b < 256

  const Two16: int := 0x1_0000
  const Two32: int := 0x1_0000_0000

  /** Two bytes, low byte first, of `v` reduced modulo 2^16 (the ToUint16 conversion of the setter). */
  function Le16(v: int): (r: seq<Byte>)
    ensures |r| == 2
  {
    var u := v % Two16;
    [u % 256, u / 256]
  }

  /** Four bytes, low byte first, of `v` reduced modulo 2^32 (the ToUint32 conversion of the setter). */
  function Le32(v: int): (r: seq<Byte>)
    ensures |r| == 4
  {
    var u := v % Two32;
    Le16(u % Two16) + Le16(u / Two16)
  }

  /** The reader that `DataView.getUint16(offset, true)` would be. */
  function ReadLe16(b: seq<Byte>, off: nat): (v: int)
    requires off + 2 <= |b|
    ensures 0 <= v < Two16
  {
    b[off] as int + 0x100 * (b[off + 1] as int)
  }

  /** The reader that `DataView.getUint32(offset, true)` would be. */
  function ReadLe32(b: seq<Byte>, off: nat): (v: int)
    requires off + 4 <= |b|
    ensures 0 <= v < Two32
  {
    ReadLe16(b, off) + Two16 * ReadLe16(b, off + 2)
  }

  /** Two's-complement reading of a 16-bit field (`Int16Array` element). */
  function ReadInt16(b: seq<Byte>, off: nat): (v: int)
    requires off + 2 <= |b|
    ensures -0x8000 <= v < 0x8000
  {
    var u := ReadLe16(b, off);
    if u < 0x8000 then u else u - Two16
  }

  /** Character codes of an ASCII tag, one byte each (`view.setUint8(offset + i, str.charCodeAt(i))`). */
  function Ascii(s: string): (r: seq<Byte>)
    ensures |r| == |s|
    ensures forall i :: 0 <= i < |s| && (s[i] as int) < 256 ==> r[i] == s[i] as int
  {
    if s == [] then [] else [(s[0] as int) % 256] + Ascii(s[1..])
  }

  lemma Le16RoundTrip(v: int)
    ensures ReadLe16(Le16(v), 0) == v % Two16
  {
  }

  lemma Le32RoundTrip(v: int)
    ensures ReadLe32(Le32(v), 0) == v % Two32
  {
    var u := v % Two32;
    var b := Le32(v);
    Le16RoundTrip(u % Two16);
    Le16RoundTrip(u / Two16);
    assert b[0..2] == Le16(u % Two16) && b[2..4] == Le16(u / Two16);
    assert ReadLe16(b, 0) == ReadLe16(b[0..2], 0);
    assert ReadLe16(b, 2) == ReadLe16(b[2..4], 0);
  }

  /** Writing back what was read reproduces the bytes: the encoding is onto. */
  lemma Le16ReadBack(b: seq<Byte>)
    requires |b| == 2
    ensures Le16(ReadLe16(b, 0)) == b
  {
    var v := ReadLe16(b, 0);
    assert v % Two16 == v;
    DigitSplit(b[0], b[1], 256);
    assert Le16(v) == [v % 256, v / 256];
  }

  /** `lo + base * hi` has `lo` as remainder and `hi` as quotient by `base`. */
  lemma DigitSplit(lo: int, hi: int, base: int)
    requires 0 <= lo < base
    ensures (lo + base * hi) % base == lo && (lo + base * hi) / base == hi
  {
    var n := lo + base * hi;
    var k := n / base - hi;
    assert base * k == lo - n % base;
    MulSign(base, k);
  }

  lemma MulSign(a: nat, k: int)
    ensures k >= 1 ==> a * k >= a
    ensures k <= -1 ==> a * k + a <= 0
  {
  }

  lemma Le32ReadBack(b: seq<Byte>)
    requires |b| == 4
    ensures Le32(ReadLe32(b, 0)) == b
  {
    var lo, hi := ReadLe16(b, 0), ReadLe16(b, 2);
    var u := lo + Two16 * hi;
    assert u % Two32 == u;
    DigitSplit(lo, hi, Two16);
    Le16ReadBack(b[0..2]);
    Le16ReadBack(b[2..4]);
    assert ReadLe16(b[0..2], 0) == lo && ReadLe16(b[2..4], 0) == hi;
    assert b == b[0..2] + b[2..4];
  }

  /** A 16-bit value in the signed range is recovered by the two's-complement reader. */
  lemma Int16RoundTrip(v: int)
    requires -0x8000 <= v < 0x8000
    ensures ReadInt16(Le16(v), 0) == v
  {
    Le16RoundTrip(v);
  }
}

=== FILE: dashboard.dfy ===
/**
 * The figures the dashboard derives from the loaded state: lessons completed in
 * total, the curriculum offered under "continue" and its percentage, and the
 * daily challenge of the weekday.
 */
module Dashboard {
  import opened Wrappers
  import opened Lists
  import opened Domain
  import opened Store

  const DailyChallenges: seq<string> := [
    "Write 3 sentences using inversion (e.g. 'Never have I...')",
    "Use 5 different discourse markers in a short paragraph",
    "Describe your morning routine using the present perfect",
    "Write a formal email declining an invitation",
    "Explain a concept you know well using only simple words"]

  /** `new Date().getDay() % DAILY_CHALLENGES.length`, for a weekday number `day`. */
  function DailyChallengeIndex(day: nat): (i: nat)
    ensures i < |DailyChallenges|
    ensures day < |DailyChallenges| ==> i == day
    ensures |DailyChallenges| <= day < 2 * |DailyChallenges| ==> i == day - |DailyChallenges|
  {
    day % |DailyChallenges|
  }

  /** `progress.reduce((acc, cp) => acc + completed entries of cp, 0)`. */
  function TotalLessonsCompleted(ps: seq<CurriculumProgress>): nat
    decreases |ps|
  {
    if ps == [] then 0 else TotalLessonsCompleted(ps[..|ps| - 1]) + CompletedCount(ps[|ps| - 1])
  }

  /** Every record's completed lessons are part of the total, and the total is 0 when none has any. */
  lemma {:induction false} TotalCountsEachRecord(ps: seq<CurriculumProgress>)
    ensures forall i :: 0 <= i < |ps| ==> CompletedCount(ps[i]) <= TotalLessonsCompleted(ps)
    ensures (forall i :: 0 <= i < |ps| ==> CompletedCount(ps[i]) == 0) ==> TotalLessonsCompleted(ps) == 0
    decreases |ps|
  {
    if ps != [] {
      var init := ps[..|ps| - 1];
      TotalCountsEachRecord(init);
      assert forall i :: 0 <= i < |init| ==> init[i] == ps[i];
    }
  }

  /** The total is additive over the list of records. */
  lemma {:induction false} TotalAppend(a: seq<CurriculumProgress>, b: seq<CurriculumProgress>)
    ensures TotalLessonsCompleted(a + b) == TotalLessonsCompleted(a) + TotalLessonsCompleted(b)
    decreases |b|
  {
    if b == [] {
      assert a + b == a;
    } else {
      var b' := b[..|b| - 1];
      assert (a + b)[..|a + b| - 1] == a + b';
      TotalAppend(a, b');
    }
  }

  /** Replacing one record changes the total by the difference of their completed counts. */
  lemma {:induction false} TotalUpdate(ps: seq<CurriculumProgress>, i: nat, x: CurriculumProgress)
    requires i < |ps|
    ensures TotalLessonsCompleted(ps[i := x]) + CompletedCount(ps[i]) == TotalLessonsCompleted(ps) + CompletedCount(x)
    decreases |ps|
  {
    var n := |ps|;
    var qs := ps[i := x];
    if i == n - 1 {
      assert qs[..n - 1] == ps[..n - 1];
    } else {
      assert qs[..n - 1] == ps[..n - 1][i := x];
      TotalUpdate(ps[..n - 1], i, x);
    }
  }

  /** Marking one lesson completed adds it to the completed set, once. */
  lemma CompletedCountAfterMark(cp: CurriculumProgress, lessonId: string, entry: LessonProgress)
    requires entry.completed
    ensures var was := lessonId in cp.lessons && cp.lessons[lessonId].completed;
      CompletedCount(cp.(lessons := cp.lessons[lessonId := entry])) == CompletedCount(cp) + (if was then 0 else 1)
  {
    var m := cp.lessons;
    var m' := m[lessonId := entry];
    var before := set k | k in m && m[k].completed;
    var after := set k | k in m' && m'[k].completed;
    assert after == before + {lessonId};
  }

  /** Completing a lesson raises the dashboard total by one exactly when it was not completed before. */
  lemma CompleteLessonCounts(s: AppState, curriculumId: string, lessonId: string, xp: int, now: string)
    ensures var before := LessonProgressIn(s.progress, curriculumId, lessonId);
      var was := before.Some? && before.value.completed;
      TotalLessonsCompleted(CompleteLessonIn(s, curriculumId, lessonId, xp, now).progress)
        == TotalLessonsCompleted(s.progress) + (if was then 0 else 1)
  {
    var ps := s.progress;
    var rs := CompleteLessonIn(s, curriculumId, lessonId, xp, now).progress;
    var entry := CompletedEntry(xp, now);
    var i := FindFirst(ps, ForCurriculum(curriculumId));
    if i < 0 {
      var added := CurriculumProgress(curriculumId, map[lessonId := entry]);
      assert rs == ps + [added];
      TotalAppend(ps, [added]);
      assert [added][..0] == [];
      assert (set k | k in added.lessons && added.lessons[k].completed) == {lessonId};
    } else {
      var updated := ps[i].(lessons := ps[i].lessons[lessonId := entry]);
      assert rs == ps[i := updated];
      TotalUpdate(ps, i, updated);
      CompletedCountAfterMark(ps[i], lessonId, entry);
    }
  }

  /** The curriculum behind "continue": the last lesson's curriculum if it still exists, else the first. */
  function ContinueCurriculum(s: AppState): (r: Option<Curriculum>)
    ensures r.Some? ==> r.value in s.curriculums
    ensures s.curriculums == [] ==> r.None?
    ensures s.lastLesson.Some? && HasId(s.curriculums, s.lastLesson.value.curriculumId) ==>
      r.Some? && r.value.id == s.lastLesson.value.curriculumId
    ensures s.lastLesson.Some? ==>
      var k := FindFirst(s.curriculums, IdIs(s.lastLesson.value.curriculumId));
      k >= 0 ==> r == Some(s.curriculums[k])
    ensures (s.lastLesson.None? || !HasId(s.curriculums, s.lastLesson.value.curriculumId)) && s.curriculums != [] ==>
      r == Some(s.curriculums[0])
  {
    var fallback := if s.curriculums == [] then None else Some(s.curriculums[0]);
    if s.lastLesson.None? then fallback
    else
      var k := FindFirst(s.curriculums, IdIs(s.lastLesson.value.curriculumId));
      if k >= 0 then Some(s.curriculums[k]) else fallback
  }

  /** What a new learner's dashboard shows: the bundled curriculum, nothing completed, 0 %. */
  lemma FreshLearnerDashboard(today: string)
    ensures var s := DefaultState(today);
      && ContinueCurriculum(s) == Some(SampleCurriculum)
      && ContinueProgress(s) == 0
      && TotalLessonsCompleted(s.progress) == 0
  {
  }

  /**
   * A new learner who completes the first lesson of the bundled curriculum (eight lessons)
   * sees one lesson completed and 13 % (12.5 rounded half up).
   */
  lemma FirstLessonOfSample(today: string, now: string)
    ensures var s := CompleteLessonIn(DefaultState(today), SampleCurriculum.id, "l1", 40, now);
      && TotalLessonsCompleted(s.progress) == 1
      && ContinueProgress(s) == 13
  {
    SampleCurriculumHasEightLessons();
    FirstCompletion(DefaultState(today), SampleCurriculum, "l1", 40, now);
    assert RoundedPercent(1, 8) == 13;
  }

  /** From no progress at all, completing one lesson of the only curriculum shows one lesson done. */
  lemma FirstCompletion(s: AppState, c: Curriculum, lessonId: string, xp: int, now: string)
    requires s.progress == [] && s.lastLesson.None? && s.curriculums == [c] && TotalLessons(c) > 0
    ensures var r := CompleteLessonIn(s, c.id, lessonId, xp, now);
      && TotalLessonsCompleted(r.progress) == 1
      && ContinueProgress(r) == RoundedPercent(1, TotalLessons(c))
  {
    var r := CompleteLessonIn(s, c.id, lessonId, xp, now);
    var cp := CurriculumProgress(c.id, map[lessonId := CompletedEntry(xp, now)]);
    assert r.progress == [cp] && r.curriculums == [c] && r.lastLesson.None?;
    SingleEntryCount(cp, lessonId);
    OneRecordFigures(r, c, cp);
  }

  /** The dashboard figures for a state with one curriculum and one record for it. */
  lemma OneRecordFigures(r: AppState, c: Curriculum, cp: CurriculumProgress)
    requires r.progress == [cp] && r.curriculums == [c] && r.lastLesson.None?
    requires cp.curriculumId == c.id && TotalLessons(c) > 0
    ensures TotalLessonsCompleted(r.progress) == CompletedCount(cp)
    ensures ContinueProgress(r) == RoundedPercent(CompletedCount(cp), TotalLessons(c))
  {
    assert TotalLessonsCompleted([cp]) == CompletedCount(cp) by { assert [cp][..0] == []; }
    assert FindFirst([cp], ForCurriculum(c.id)) == 0;
    assert ContinueCurriculum(r) == Some(c);
  }

  /** A record holding one completed entry counts one completed lesson. */
  lemma SingleEntryCount(cp: CurriculumProgress, lessonId: string)
    requires cp.lessons.Keys == {lessonId} && cp.lessons[lessonId].completed
    ensures CompletedCount(cp) == 1
  {
    assert (set k | k in cp.lessons && cp.lessons[k].completed) == {lessonId};
  }

  /** The percentage shown for the "continue" curriculum. */
  function ContinueProgress(s: AppState): (r: int)
    ensures ContinueCurriculum(s).None? ==> r == 0
    ensures ContinueCurriculum(s).Some? ==> r == GetCurriculumProgress(ContinueCurriculum(s).value, s.progress)
    ensures 0 <= r
  {
    match ContinueCurriculum(s)
    case None => 0
    case Some(c) => GetCurriculumProgress(c, s.progress)
  }
}

=== FILE: domain.dfy ===
/**
 * The application's data: CEFR levels, the curriculum tree (modules, units,
 * lessons), per-curriculum lesson progress and the persisted `AppState`.
 * Descriptive text fields and lesson content are not modelled.
 */
module Domain {
  import opened Wrappers

  datatype Level = A1 | A2 | B1 | B2 | C1 | C2

  /** `LEVEL_ORDER`, from beginner to proficiency. */
  const LevelOrder: seq<Level> := [A1, A2, B1, B2, C1, C2]

  /** Position of a level in `LEVEL_ORDER`. */
  function Rank(l: Level): (n: nat)
    ensures n < |LevelOrder| && LevelOrder[n] == l
  {
    match l
    case A1 => 0
    case A2 => 1
    case B1 => 2
    case B2 => 3
    case C1 => 4
    case C2 => 5
  }

  /** The string form a level has in stored and imported JSON. */
  function LevelName(l: Level): string {
    match l
    case A1 => "A1"
    case A2 => "A2"
    case B1 => "B1"
    case B2 => "B2"
    case C1 => "C1"
    case C2 => "C2"
  }

  /** Membership in `["A1", "A2", "B1", "B2", "C1", "C2"]`, returning the level named. */
  function ParseLevel(s: string): (r: Option<Level>)
    ensures r.Some? ==> LevelName(r.value) == s
  {
    if s == "A1" then Some(A1)
    else if s == "A2" then Some(A2)
    else if s == "B1" then Some(B1)
    else if s == "B2" then Some(B2)
    else if s == "C1" then Some(C1)
    else if s == "C2" then Some(C2)
    else None
  }

  lemma LevelNameRoundTrip(l: Level)
    ensures ParseLevel(LevelName(l)) == Some(l)
  {
  }

  datatype LessonType = Flashcard | Quiz | FillBlank | Writing | Speech | Reading

  datatype Lesson = Lesson(id: string, title: string, xp: int, kind: LessonType)
  datatype Unit = Unit(id: string, title: string, lessons: seq<Lesson>)
  datatype Module = Module(id: string, title: string, units: seq<Unit>)
  datatype Curriculum = Curriculum(id: string, title: string, level: Level, modules: seq<Module>)

  datatype LessonProgress = LessonProgress(completed: bool, xpEarned: int, completedAt: Option<string>)

  /** Progress on one curriculum: a record keyed by lesson id. */
  datatype CurriculumProgress = CurriculumProgress(curriculumId: string, lessons: map<string, LessonProgress>)

  datatype LastLesson = LastLesson(curriculumId: string, moduleId: string, unitId: string, lessonId: string)

  datatype AppState = AppState(
    onboardingComplete: bool,
    currentLevel: Level,
    totalXp: int,
    streakDays: int,
    lastActiveDate: string,
    lastLesson: Option<LastLesson>,
    curriculums: seq<Curriculum>,
    progress: seq<CurriculumProgress>)

  /** The lessons of a unit list, unit by unit (`units.flatMap(u => u.lessons)`). */
  function UnitLessons(us: seq<Unit>): seq<Lesson>
    decreases |us|
  {
    if us == [] then [] else UnitLessons(us[..|us| - 1]) + us[|us| - 1].lessons
  }

  /** Every lesson of a curriculum in reading order (`modules.flatMap(m => m.units.flatMap(u => u.lessons))`). */
  function AllLessons(ms: seq<Module>): seq<Lesson>
    decreases |ms|
  {
    if ms == [] then [] else AllLessons(ms[..|ms| - 1]) + UnitLessons(ms[|ms| - 1].units)
  }

  function TotalLessons(c: Curriculum): nat {
    |AllLessons(c.modules)|
  }

  /** Number of lesson entries marked completed in a progress record. */
  function CompletedCount(cp: CurriculumProgress): nat {
    |set k | k in cp.lessons && cp.lessons[k].completed|
  }

  /** The bundled B2 curriculum every default state starts with (ids, titles, XP and lesson types). */
  const SampleCurriculum: Curriculum := Curriculum("b2-general-english", "General English", B2, [
    Module("m1", "Advanced Vocabulary", [
      Unit("u1", "Collocations", [
        Lesson("l1", "Make vs Do", 40, Flashcard),
        Lesson("l2", "Collocation Quiz", 50, Quiz),
        Lesson("l3", "Fill in the Blanks", 40, FillBlank)]),
      Unit("u2", "Idioms in Context", [
        Lesson("l4", "Common Idioms", 40, Flashcard),
        Lesson("l5", "Idiom Quiz", 50, Quiz)])]),
    Module("m2", "Writing Skills", [
      Unit("u3", "Essay Structure", [
        Lesson("l6", "Parts of an Essay", 40, Reading),
        Lesson("l7", "Write a Short Essay", 80, Writing),
        Lesson("l8", "Practice Speaking: Opinions", 60, Speech)])])])

  /** The bundled curriculum has eight lessons. */
  lemma SampleCurriculumHasEightLessons()
    ensures TotalLessons(SampleCurriculum) == 8
  {
    var m := SampleCurriculum.modules;
    var u1, u2 := m[0].units, m[1].units;
    assert UnitLessons(u1[..1]) == UnitLessons(u1[..1][..0]) + u1[0].lessons;
    assert UnitLessons(u1) == UnitLessons(u1[..1]) + u1[1].lessons;
    assert |UnitLessons(u1)| == 5;
    assert UnitLessons(u2) == UnitLessons(u2[..0]) + u2[0].lessons;
    assert |UnitLessons(u2)| == 3;
    assert AllLessons(m[..1]) == AllLessons(m[..1][..0]) + UnitLessons(u1);
    assert AllLessons(m) == AllLessons(m[..1]) + UnitLessons(u2);
  }
}

=== FILE: import_page.dfy ===
/**
 * The import page: a curriculum file is checked for its name and its shape, held as
 * `parsed` while the learner reviews it, and then added to (or deleted from) storage.
 *
 * The parsed JSON is a `Json` value. Reading the file and `JSON.parse` are replaced by
 * their outcome: `None` when parsing throws, the value otherwise.
 */
module ImportPage {
  import opened Wrappers
  import opened Lists
  import opened Domain
  import opened Store

  /** A JSON value; JSON numbers are reals (JSON has no NaN or infinities). */
  datatype Json =
    | JNull
    | JBool(b: bool)
    | JNum(n: real)
    | JStr(s: string)
    | JArr(items: seq<Json>)
    | JObj(fields: map<string, Json>)

  /** JavaScript truthiness of a property read; `None` is `undefined`. */
  predicate Truthy(v: Option<Json>) {
    match v
    case None => false
    case Some(JNull) => false
    case Some(JBool(b)) => b
    case Some(JNum(n)) => n != 0.0
    case Some(JStr(s)) => s != ""
    case Some(JArr(_)) => true
    case Some(JObj(_)) => true
  }

  /** `typeof v === "object"` (true for null, arrays and objects). */
  predicate IsObjectType(v: Json) {
    v.JNull? || v.JArr? || v.JObj?
  }

  /** A property read `v.key`: only objects carry the named properties read here. */
  function Field(v: Json, key: string): (r: Option<Json>)
    ensures r.Some? <==> v.JObj? && key in v.fields
    ensures r.Some? ==> r.value == v.fields[key]
  {
    if v.JObj? && key in v.fields then Some(v.fields[key]) else None
  }

  /** The strings `validLevels` holds: the names of the six levels. */
  predicate IsLevelName(v: Option<Json>) {
    v.Some? && v.value.JStr? && ParseLevel(v.value.s).Some?
  }

  /** `validateCurriculum`, one early return per check, as the page writes it. */
  function ValidateCurriculum(data: Json): (ok: bool)
  {
    if !IsObjectType(data) || data.JNull? then false
    else
      var cur := Field(data, "curriculum");
      if !Truthy(cur) || !IsObjectType(cur.value) then false
      else
        var c := cur.value;
        if !Truthy(Field(c, "id")) || !Truthy(Field(c, "title")) || !Truthy(Field(c, "level"))
           || !(Field(c, "modules").Some? && Field(c, "modules").value.JArr?) then false
        else IsLevelName(Field(c, "level"))
  }

  /**
   * The shape an importable file has: an object whose `curriculum` is an object with a
   * truthy `id` and `title`, a level name as `level`, and an array as `modules`.
   */
  predicate WellFormedImport(data: Json) {
    && data.JObj?
    && "curriculum" in data.fields
    && var c := data.fields["curriculum"];
    && c.JObj?
    && "id" in c.fields && Truthy(Some(c.fields["id"]))
    && "title" in c.fields && Truthy(Some(c.fields["title"]))
    && "level" in c.fields && c.fields["level"].JStr? && ParseLevel(c.fields["level"].s).Some?
    && "modules" in c.fields && c.fields["modules"].JArr?
  }

  /** The page's checks accept exactly the well-formed files. */
  lemma ValidateIsWellFormed(data: Json)
    ensures ValidateCurriculum(data) <==> WellFormedImport(data)
  {
    if ValidateCurriculum(data) {
      var c := data.fields["curriculum"];
      assert Field(c, "level").Some?;
      ParseLevelNonEmpty(c.fields["level"].s);
    } else if WellFormedImport(data) {
      var c := data.fields["curriculum"];
      ParseLevelNonEmpty(c.fields["level"].s);
      assert Truthy(Field(c, "level"));
    }
  }

  /** A level name is never the empty (falsy) string. */
  lemma ParseLevelNonEmpty(s: string)
    ensures ParseLevel(s).Some? ==> s != ""
  {
  }

  /** A curriculum object with the required fields, everything else left to the caller. */
  function CurriculumFile(id: Json, title: Json, level: Json, modules: Json): Json {
    JObj(map["curriculum" := JObj(map["id" := id, "title" := title, "level" := level, "modules" := modules])])
  }

  /** Only the top-level fields are checked: the modules' contents, and the type of `id`, are not. */
  lemma ValidationIsShallow()
    ensures ValidateCurriculum(CurriculumFile(JNum(7.0), JStr("t"), JStr("B1"), JArr([JNum(42.0)])))
    ensures !ValidateCurriculum(CurriculumFile(JStr(""), JStr("t"), JStr("B1"), JArr([])))
    ensures !ValidateCurriculum(CurriculumFile(JStr("x"), JStr("t"), JStr("b1"), JArr([])))
    ensures !ValidateCurriculum(CurriculumFile(JStr("x"), JStr("t"), JStr("B1"), JObj(map[])))
    ensures !ValidateCurriculum(JArr([CurriculumFile(JStr("x"), JStr("t"), JStr("B1"), JArr([]))]))
  {
    var l := "B1";
    assert ParseLevel(l) == Some(B1) by { LevelNameRoundTrip(B1); }
    ValidateIsWellFormed(CurriculumFile(JNum(7.0), JStr("t"), JStr("B1"), JArr([JNum(42.0)])));
  }

  predicate EndsWith(s: string, suffix: string) {
    |suffix| <= |s| && s[|s| - |suffix|..] == suffix
  }

  const WrongExtension: string := "File must be a .json file"
  const BadSchema: string := "Invalid curriculum schema. Make sure the JSON has a 'curriculum' object with id, title, level, and modules fields."
  const BadJson: string := "Invalid JSON file. Please check the file format."

  datatype ParseStatus = Idle | Valid | Invalid

  /** The page: the loaded `view`, the parse status and message, the file held for review, and storage. */
  datatype Page = Page(view: Option<AppState>, status: ParseStatus, parseError: string, parsed: Option<Json>,
                       store: Storage, sentToOnboarding: bool)

  /** What the page keeps true: a held file passed validation, and "valid" is shown only with a held file. */
  predicate Inv(p: Page) {
    && (p.parsed.Some? ==> ValidateCurriculum(p.parsed.value))
    && (p.status == Valid ==> p.parsed.Some?)
  }

  /** The mount effect: load; a learner who has not finished onboarding is sent there. */
  function OpenImport(store: Storage, today: string): (p: Page)
    ensures Inv(p) && p.status == Idle && p.parsed.None?
    ensures p.view.Some? <==> LoadState(store, today).1.onboardingComplete
    ensures p.view.Some? ==> p.view.value == LoadState(store, today).1
    ensures p.sentToOnboarding <==> p.view.None?
    ensures p.store == LoadState(store, today).0
  {
    var (stored, s) := LoadState(store, today);
    if !s.onboardingComplete then Page(None, Idle, "", None, stored, true)
    else Page(Some(s), Idle, "", None, stored, false)
  }

  /**
   * `handleFile`: a name without the `.json` suffix is refused before the file is read;
   * otherwise unparsable text and a file failing validation are refused with their own
   * messages, and a valid file is held. A refusal keeps whatever file was held before.
   */
  function HandleFile(p: Page, name: string, contents: Option<Json>): (r: Page)
    ensures Inv(p) ==> Inv(r)
    ensures r.status == Valid <==> EndsWith(name, ".json") && contents.Some? && ValidateCurriculum(contents.value)
    ensures r.status == Valid ==> r.parsed == contents && r.parseError == p.parseError
    ensures r.status == Invalid ==> r.parsed == p.parsed
    ensures !EndsWith(name, ".json") ==> r.parseError == WrongExtension
    ensures EndsWith(name, ".json") && contents.None? ==> r.parseError == BadJson
    ensures EndsWith(name, ".json") && contents.Some? && !ValidateCurriculum(contents.value) ==> r.parseError == BadSchema
    ensures r.store == p.store && r.view == p.view && r.status != Idle
  {
    if !EndsWith(name, ".json") then p.(status := Invalid, parseError := WrongExtension)
    else match contents
      case None => p.(status := Invalid, parseError := BadJson)
      case Some(data) =>
        if !ValidateCurriculum(data) then p.(status := Invalid, parseError := BadSchema)
        else p.(parsed := Some(data), status := Valid)
  }

  /** A file with the wrong name is refused whatever it contains. */
  lemma WrongNameIgnoresContents(p: Page, name: string, a: Option<Json>, b: Option<Json>)
    requires !EndsWith(name, ".json")
    ensures HandleFile(p, name, a) == HandleFile(p, name, b)
  {
  }

  /**
   * `handleImport`: nothing without a held file; otherwise the held curriculum is added,
   * the view reloaded, and the page returns to idle. `asCurriculum` is the typed view of
   * the held JSON the page trusts after validation.
   */
  function HandleImport(p: Page, today: string, asCurriculum: Json -> Curriculum): (r: Page)
    ensures p.parsed.None? ==> r == p
    ensures p.parsed.Some? ==> r.parsed.None? && r.status == Idle && r.parseError == p.parseError
    ensures p.parsed.Some? ==> r.store.Some? && r.view == r.store
    ensures p.parsed.Some? ==>
      var c := asCurriculum(p.parsed.value);
      var k := FindFirst(r.store.value.curriculums, IdIs(c.id));
      && k >= 0 && r.store.value.curriculums[k] == c
      && Filter(r.store.value.curriculums, IdIsNot(c.id)) == Filter(LoadState(p.store, today).1.curriculums, IdIsNot(c.id))
      && r.store.value == LoadState(p.store, today).1.(curriculums := r.store.value.curriculums)
    ensures Inv(p) ==> Inv(r)
  {
    match p.parsed
    case None => p
    case Some(data) =>
      var c := asCurriculum(data);
      var stored := AddCurriculum(p.store, today, c);
      var s := LoadState(stored, today).1;
      p.(store := stored, view := Some(s), parsed := None, status := Idle)
  }

  /** The cancel button: drop the held file. */
  function Cancel(p: Page): (r: Page)
    ensures r.parsed.None? && r.status == Idle && Inv(r)
    ensures r.store == p.store && r.view == p.view
  {
    p.(parsed := None, status := Idle)
  }

  /** `handleDelete`: the curriculum and its progress leave storage; the view is reloaded. */
  function HandleDelete(p: Page, today: string, id: string): (r: Page)
    ensures r.store.Some? && r.view == r.store
    ensures forall c :: c in r.store.value.curriculums ==> c.id != id
    ensures forall q :: q in r.store.value.progress ==> q.curriculumId != id
    ensures var s := LoadState(p.store, today).1;
      && r.store.value.curriculums == Filter(s.curriculums, IdIsNot(id))
      && r.store.value.progress == Filter(s.progress, NotForCurriculum(id))
      && r.store.value == s.(curriculums := r.store.value.curriculums, progress := r.store.value.progress)
    ensures forall c :: c in LoadState(p.store, today).1.curriculums && c.id != id ==> c in r.store.value.curriculums
    ensures forall q :: q in LoadState(p.store, today).1.progress && q.curriculumId != id ==> q in r.store.value.progress
    ensures r.parsed == p.parsed && r.status == p.status
  {
    var stored := RemoveCurriculum(p.store, today, id);
    p.(store := stored, view := Some(LoadState(stored, today).1))
  }

  /** Importing a file and then deleting its curriculum leaves the other curricula as they were. */
  lemma ImportThenDelete(p: Page, today: string, asCurriculum: Json -> Curriculum)
    requires p.parsed.Some?
    ensures var c := asCurriculum(p.parsed.value);
      var r := HandleDelete(HandleImport(p, today, asCurriculum), today, c.id);
      r.store.value.curriculums == Filter(LoadState(p.store, today).1.curriculums, IdIsNot(c.id))
  {
    var c := asCurriculum(p.parsed.value);
    UpsertKeepsOthers(LoadState(p.store, today).1.curriculums, c);
  }
}

=== FILE: lists.dfy ===
/** The two array methods the application leans on, `find` and `filter`, over sequences. */
module Lists {

  /** Index of the first element satisfying `p` (`Array.prototype.findIndex`, or `find` followed by indexing). */
  function FindFirst<T>(xs: seq<T>, p: T -> bool): (r: int)
    ensures -1 <= r < |xs|
    ensures r >= 0 ==> p(xs[r]) && forall j :: 0 <= j < r ==> !p(xs[j])
    ensures r == -1 <==> forall j :: 0 <= j < |xs| ==> !p(xs[j])
    decreases |xs|
  {
    if xs == [] then -1
    else if p(xs[0]) then 0
    else
      var k := FindFirst(xs[1..], p);
      if k == -1 then -1 else k + 1
  }

  /** The first-match index is determined by the characterisation above. */
  lemma FindFirstIs<T>(xs: seq<T>, p: T -> bool, k: int)
    requires -1 <= k < |xs|
    requires k >= 0 ==> p(xs[k]) && forall j :: 0 <= j < k ==> !p(xs[j])
    requires k == -1 ==> forall j :: 0 <= j < |xs| ==> !p(xs[j])
    ensures FindFirst(xs, p) == k
  {
  }

  /** `Array.prototype.filter`: the elements satisfying `keep`, in their original order. */
  function Filter<T>(xs: seq<T>, keep: T -> bool): (r: seq<T>)
    ensures |r| <= |xs|
    ensures forall i :: 0 <= i < |r| ==> keep(r[i])
    ensures forall x :: x in r ==> x in xs
    ensures forall x :: x in xs && keep(x) ==> x in r
    decreases |xs|
  {
    if xs == [] then []
    else (if keep(xs[0]) then [xs[0]] else []) + Filter(xs[1..], keep)
  }

  /** Filtering is order-preserving: the filter of a concatenation is the concatenation of the filters. */
  lemma {:induction false} FilterAppend<T>(a: seq<T>, b: seq<T>, keep: T -> bool)
    ensures Filter(a + b, keep) == Filter(a, keep) + Filter(b, keep)
    decreases |a|
  {
    if a == [] {
      assert a + b == b;
    } else {
      assert (a + b)[0] == a[0] && (a + b)[1..] == a[1..] + b;
      FilterAppend(a[1..], b, keep);
    }
  }

  /** Filtering keeps everything when every element passes. */
  lemma {:induction false} FilterKeepsAll<T>(xs: seq<T>, keep: T -> bool)
    requires forall i :: 0 <= i < |xs| ==> keep(xs[i])
    ensures Filter(xs, keep) == xs
    decreases |xs|
  {
    if xs != [] {
      FilterKeepsAll(xs[1..], keep);
    }
  }

  /** No two elements share a key. */
  predicate DistinctKeys<T>(xs: seq<T>, key: T -> string) {
    forall i, j :: 0 <= i < j < |xs| ==> key(xs[i]) != key(xs[j])
  }

  /** Filtering never introduces two elements with the same key. */
  lemma {:induction false} FilterDistinctKeys<T>(xs: seq<T>, keep: T -> bool, key: T -> string)
    requires DistinctKeys(xs, key)
    ensures DistinctKeys(Filter(xs, keep), key)
    decreases |xs|
  {
    if xs != [] {
      var tail := xs[1..];
      assert DistinctKeys(tail, key) by {
        forall i, j | 0 <= i < j < |tail| ensures key(tail[i]) != key(tail[j]) {
          assert tail[i] == xs[i + 1] && tail[j] == xs[j + 1];
        }
      }
      FilterDistinctKeys(tail, keep, key);
      var rest := Filter(tail, keep);
      if keep(xs[0]) {
        var r := [xs[0]] + rest;
        assert Filter(xs, keep) == r;
        forall i, j | 0 <= i < j < |r| ensures key(r[i]) != key(r[j]) {
          if i == 0 {
            assert r[j] == rest[j - 1] && rest[j - 1] in tail;
            var k :| 0 <= k < |tail| && tail[k] == rest[j - 1];
            assert xs[k + 1] == r[j];
          } else {
            assert r[i] == rest[i - 1] && r[j] == rest[j - 1];
          }
        }
      } else {
        assert Filter(xs, keep) == [] + rest;
        assert [] + rest == rest;
      }
    }
  }
}

=== FILE: onboarding.dfy ===
/**
 * The onboarding page: welcome, the choice between the placement test and a manual
 * pick, the ten-question placement test, the recommended level, and `finish`.
 *
 * A click on a button the current step does not render has no effect.
 */
module Onboarding {
  import opened Wrappers
  import opened Domain
  import opened Store

  /** The index of the correct option of each placement question, in order. */
  const PlacementAnswers: seq<int> := [2, 2, 2, 1, 1, 1, 0, 0, 0, 2]
  const QuestionCount: nat := 10
  /** Every placement question offers four options. */
  const OptionCount: nat := 4

  /**
   * `recommendLevel`: the thresholds 0.9, 0.75, 0.55, 0.4 and 0.25 on `correct / 10`,
   * compared exactly (`100 * correct >= 90 * 10` for 0.9, and so on).
   */
  function RecommendLevel(correct: int): (l: Level)
    ensures correct <= 2 ==> l == A1
    ensures correct == 3 ==> l == A2
    ensures 4 <= correct <= 5 ==> l == B1
    ensures 6 <= correct <= 7 ==> l == B2
    ensures correct == 8 ==> l == C1
    ensures 9 <= correct ==> l == C2
  {
    if 100 * correct >= 90 * QuestionCount then C2
    else if 100 * correct >= 75 * QuestionCount then C1
    else if 100 * correct >= 55 * QuestionCount then B2
    else if 100 * correct >= 40 * QuestionCount then B1
    else if 100 * correct >= 25 * QuestionCount then A2
    else A1
  }

  /** More correct answers never recommend a lower level in `LEVEL_ORDER`. */
  lemma RecommendLevelMonotone(a: int, b: int)
    requires a <= b
    ensures Rank(RecommendLevel(a)) <= Rank(RecommendLevel(b))
  {
  }

  /** The extremes of the test: no correct answer gives A1, all correct gives C2. */
  lemma RecommendLevelExtremes()
    ensures RecommendLevel(0) == A1 && RecommendLevel(QuestionCount) == C2
  {
  }

  datatype Step = Welcome | Choice | Test | Result | Manual

  datatype Ui = Ui(step: Step, qIdx: nat, selected: Option<int>, showExp: bool, correctCount: nat, manualLevel: Level)

  /** The page as first rendered. */
  const Start: Ui := Ui(Welcome, 0, None, false, 0, B2)

  /** `handleAnswer(idx)`: ignored once the explanation shows; otherwise records the answer and scores it. */
  function HandleAnswer(u: Ui, idx: int): (r: Ui)
    requires u.qIdx < QuestionCount
    ensures u.showExp ==> r == u
    ensures !u.showExp ==> r.showExp && r.selected == Some(idx)
    ensures !u.showExp ==> r.correctCount == u.correctCount + (if idx == PlacementAnswers[u.qIdx] then 1 else 0)
    ensures r.step == u.step && r.qIdx == u.qIdx && r.manualLevel == u.manualLevel
  {
    if u.showExp then u
    else
      var score := if idx == PlacementAnswers[u.qIdx] then 1 else 0;
      u.(selected := Some(idx), showExp := true, correctCount := u.correctCount + score)
  }

  /** `nextQuestion`: advance and clear the answer, or go to the result after the last question. */
  function NextQuestion(u: Ui): (r: Ui)
    ensures u.qIdx + 1 < QuestionCount ==> r == u.(qIdx := u.qIdx + 1, selected := None, showExp := false)
    ensures u.qIdx + 1 >= QuestionCount ==> r == u.(step := Result)
  {
    if u.qIdx < QuestionCount - 1 then u.(qIdx := u.qIdx + 1, selected := None, showExp := false)
    else u.(step := Result)
  }

  /** The buttons of the page. */
  datatype Click =
    | GetStarted                // welcome
    | TestMyLevel               // choice
    | KnowMyLevel               // choice
    | PickLevel(level: Level)   // manual
    | StartManual               // manual: finish(manualLevel)
    | Answer(option: int)       // test: one button per option
    | Next                      // test, shown with the explanation
    | StartRecommended          // result: finish(recommended)
    | ChooseDifferent           // result

  /** The page state together with storage; `finished` records that `finish` ran and navigation began. */
  datatype Page = Page(ui: Ui, store: Storage, finished: bool)

  /** `finish(level)`: complete onboarding with exactly that level, keeping the rest of the loaded state. */
  function Finish(p: Page, level: Level, today: string): (r: Page)
    ensures r.finished && r.ui == p.ui
    ensures r.store.Some? && r.store.value.currentLevel == level && r.store.value.onboardingComplete
    ensures r.store.value == LoadState(p.store, today).1.(currentLevel := level, onboardingComplete := true)
  {
    p.(store := CompleteOnboarding(p.store, today, level), finished := true)
  }

  /** What the placement-test invariant guarantees about the counters. */
  predicate Inv(u: Ui) {
    && u.qIdx < QuestionCount
    && u.correctCount <= u.qIdx + (if u.showExp then 1 else 0)
  }

  /** One click on the rendered page. */
  function Dispatch(p: Page, click: Click, today: string): (r: Page)
    requires p.ui.qIdx < QuestionCount
    ensures Inv(p.ui) ==> Inv(r.ui)
    ensures r.ui.correctCount <= p.ui.correctCount + 1
    ensures r.store != p.store ==> r.finished
  {
    var u := p.ui;
    match (u.step, click)
    case (Welcome, GetStarted) => p.(ui := u.(step := Choice))
    case (Choice, TestMyLevel) => p.(ui := u.(step := Test))
    case (Choice, KnowMyLevel) => p.(ui := u.(step := Manual))
    case (Manual, PickLevel(l)) => p.(ui := u.(manualLevel := l))
    case (Manual, StartManual) => Finish(p, u.manualLevel, today)
    case (Test, Answer(i)) => if 0 <= i < OptionCount then p.(ui := HandleAnswer(u, i)) else p
    case (Test, Next) => if u.showExp then p.(ui := NextQuestion(u)) else p
    case (Result, StartRecommended) => Finish(p, RecommendLevel(u.correctCount), today)
    case (Result, ChooseDifferent) => p.(ui := u.(step := Manual))
    case _ => p
  }

  /** A sequence of clicks from a page state. */
  function Clicks(p: Page, cs: seq<Click>, today: string): (r: Page)
    requires Inv(p.ui)
    ensures Inv(r.ui)
    decreases |cs|
  {
    if cs == [] then p else Clicks(Dispatch(p, cs[0], today), cs[1..], today)
  }

  /** However the learner clicks, the score never exceeds the number of questions. */
  lemma ScoreBounded(store: Storage, cs: seq<Click>, today: string)
    ensures Clicks(Page(Start, store, false), cs, today).ui.correctCount <= QuestionCount
  {
  }

  /** Finishing from the result stores the recommended level for the score shown. */
  lemma FinishStoresRecommendation(p: Page, today: string)
    requires p.ui.step == Result && p.ui.qIdx < QuestionCount
    ensures var r := Dispatch(p, StartRecommended, today);
      r.finished && r.store.Some? && r.store.value.onboardingComplete
      && r.store.value.currentLevel == RecommendLevel(p.ui.correctCount)
  {
  }

  /** What each rendered button does. */
  lemma ClickEffects(p: Page, today: string)
    requires p.ui.qIdx < QuestionCount
    ensures p.ui.step == Welcome ==> Dispatch(p, GetStarted, today) == p.(ui := p.ui.(step := Choice))
    ensures p.ui.step == Choice ==> Dispatch(p, TestMyLevel, today) == p.(ui := p.ui.(step := Test))
    ensures p.ui.step == Choice ==> Dispatch(p, KnowMyLevel, today) == p.(ui := p.ui.(step := Manual))
    ensures p.ui.step == Result ==> Dispatch(p, ChooseDifferent, today) == p.(ui := p.ui.(step := Manual))
    ensures p.ui.step == Manual ==> forall l :: Dispatch(p, PickLevel(l), today) == p.(ui := p.ui.(manualLevel := l))
    ensures p.ui.step == Manual ==> Dispatch(p, StartManual, today) == Finish(p, p.ui.manualLevel, today)
    ensures p.ui.step == Test ==>
      forall i :: 0 <= i < OptionCount ==> Dispatch(p, Answer(i), today) == p.(ui := HandleAnswer(p.ui, i))
    ensures p.ui.step == Test && p.ui.showExp ==> Dispatch(p, Next, today) == p.(ui := NextQuestion(p.ui))
    ensures p.ui.step == Test && !p.ui.showExp ==> Dispatch(p, Next, today) == p
    ensures p.ui.step == Result ==>
      Dispatch(p, StartRecommended, today) == Finish(p, RecommendLevel(p.ui.correctCount), today)
  {
  }

  /** The manual path from the welcome screen: picking a level and starting stores exactly that level. */
  lemma ManualPathStoresPick(store: Storage, today: string, l: Level)
    ensures var r := Clicks(Page(Start, store, false), [GetStarted, KnowMyLevel, PickLevel(l), StartManual], today);
      && r.finished && r.ui.step == Manual && r.ui.manualLevel == l
      && r.store == Some(LoadState(store, today).1.(currentLevel := l, onboardingComplete := true))
  {
    var p0 := Page(Start, store, false);
    var p1 := Dispatch(p0, GetStarted, today);
    var p2 := Dispatch(p1, KnowMyLevel, today);
    var p3 := Dispatch(p2, PickLevel(l), today);
    var p4 := Dispatch(p3, StartManual, today);
    assert p3.ui == Start.(step := Manual, manualLevel := l);
    var cs := [GetStarted, KnowMyLevel, PickLevel(l), StartManual];
    assert [StartManual][1..] == [];
    assert Clicks(p3, [StartManual], today) == p4;
    assert [PickLevel(l), StartManual][1..] == [StartManual];
    assert Clicks(p2, [PickLevel(l), StartManual], today) == p4;
    assert [KnowMyLevel, PickLevel(l), StartManual][1..] == [PickLevel(l), StartManual];
    assert Clicks(p1, [KnowMyLevel, PickLevel(l), StartManual], today) == p4;
    assert cs[1..] == [KnowMyLevel, PickLevel(l), StartManual];
    assert Clicks(p0, cs, today) == p4;
  }

  /** The step transitions the buttons allow. */
  lemma StepTransitions(p: Page, click: Click, today: string)
    requires p.ui.qIdx < QuestionCount
    ensures var s, t := p.ui.step, Dispatch(p, click, today).ui.step;
      && (s == Welcome ==> t in {Welcome, Choice})
      && (s == Choice ==> t in {Choice, Test, Manual})
      && (s == Test ==> t in {Test, Result})
      && (s == Result ==> t in {Result, Manual})
      && (s == Manual ==> t == Manual)
  {
  }
}

=== FILE: settings.dfy ===
/**
 * The settings page: level change, progress reset and the two-step "clear all data".
 * The page holds its own copy of the loaded state (`view`) and writes it back to storage.
 */
module Settings {
  import opened Wrappers
  import opened Domain
  import opened Store
  import opened Dashboard

  datatype SettingsPage = SettingsPage(view: Option<AppState>, confirmClear: bool, store: Storage, sentToOnboarding: bool)

  /** The mount effect: load; a learner who has not finished onboarding is sent there and no view is kept. */
  function OpenSettings(store: Storage, today: string): (p: SettingsPage)
    ensures p.view.Some? <==> LoadState(store, today).1.onboardingComplete
    ensures p.view.Some? ==> p.view.value == LoadState(store, today).1
    ensures p.sentToOnboarding <==> p.view.None?
    ensures p.store == LoadState(store, today).0 && !p.confirmClear
  {
    var (stored, s) := LoadState(store, today);
    if !s.onboardingComplete then SettingsPage(None, false, stored, true)
    else SettingsPage(Some(s), false, stored, false)
  }

  /** `changeLevel`: only the level changes, in the view and in storage. */
  function ChangeLevel(p: SettingsPage, level: Level): (r: SettingsPage)
    ensures p.view.None? ==> r == p
    ensures p.view.Some? ==> r.view == Some(p.view.value.(currentLevel := level)) && r.store == r.view
    ensures r.confirmClear == p.confirmClear && r.sentToOnboarding == p.sentToOnboarding
  {
    if p.view.None? then p
    else
      var updated := p.view.value.(currentLevel := level);
      p.(view := Some(updated), store := Some(updated))
  }

  /** `resetProgress`: progress, XP, streak and last lesson are cleared; everything else is kept. */
  function ResetProgress(p: SettingsPage): (r: SettingsPage)
    ensures p.view.None? ==> r == p
    ensures p.view.Some? ==> r.view.Some? && r.store == r.view
    ensures p.view.Some? && r.view.Some? ==>
      var s, u := p.view.value, r.view.value;
      && u.progress == [] && u.totalXp == 0 && u.streakDays == 0 && u.lastLesson.None?
      && u.curriculums == s.curriculums && u.currentLevel == s.currentLevel
      && u.onboardingComplete == s.onboardingComplete && u.lastActiveDate == s.lastActiveDate
    ensures r.confirmClear == p.confirmClear && r.sentToOnboarding == p.sentToOnboarding
  {
    if p.view.None? then p
    else
      var updated := p.view.value.(progress := [], totalXp := 0, streakDays := 0, lastLesson := None);
      p.(view := Some(updated), store := Some(updated))
  }

  /** `handleClearAll`: the first press only arms the confirmation; a press while armed clears storage. */
  function HandleClearAll(p: SettingsPage): (r: SettingsPage)
    ensures !p.confirmClear ==> r.confirmClear && r.store == p.store && r.view == p.view && r.sentToOnboarding == p.sentToOnboarding
    ensures p.confirmClear ==> r.store.None? && r.sentToOnboarding
    ensures r.store != p.store ==> p.confirmClear
  {
    if !p.confirmClear then p.(confirmClear := true)
    else p.(store := ClearAllData(p.store), sentToOnboarding := true)
  }

  /** Clearing takes two presses: one leaves storage alone, the second empties it. */
  lemma ClearNeedsTwoPresses(p: SettingsPage)
    requires !p.confirmClear
    ensures HandleClearAll(p).store == p.store
    ensures HandleClearAll(HandleClearAll(p)).store.None?
  {
  }

  /** After a reset nothing counts as completed and only the first lesson of any curriculum is unlocked. */
  lemma ResetForgetsProgress(p: SettingsPage, c: Curriculum, curriculumId: string, index: int, ids: seq<string>)
    requires p.view.Some?
    ensures var u := ResetProgress(p).view.value;
      && TotalLessonsCompleted(u.progress) == 0
      && GetCurriculumProgress(c, u.progress) == 0
      && (IsLessonUnlockedIn(u.progress, curriculumId, index, ids) <==> index == 0)
  {
  }

  /** The saved state is what the page shows: reloading storage after a change reads the view back. */
  lemma SavedStateReloads(p: SettingsPage, level: Level, today: string)
    requires p.view.Some?
    ensures LoadState(ChangeLevel(p, level).store, today).1 == ChangeLevel(p, level).view.value
    ensures LoadState(ResetProgress(p).store, today).1 == ResetProgress(p).view.value
  {
  }
}

=== FILE: store.dfy ===
/**
 * `store.ts`: the persisted application state and its transitions.
 *
 * localStorage under the one key `linguapath_state` is a `Storage` value: absent,
 * or a stored `AppState`. The current date and time are `today`/`now` parameters.
 */
module Store {
  import opened Wrappers
  import opened Lists
  import opened Domain

  type Storage = Option<AppState>

  /** `getDefaultState`: a fresh learner with the bundled curriculum and no progress. */
  function DefaultState(today: string): (s: AppState)
    ensures !s.onboardingComplete && s.currentLevel == B2 && s.totalXp == 0 && s.streakDays == 0
    ensures s.lastActiveDate == today && s.lastLesson.None?
    ensures s.curriculums == [SampleCurriculum] && s.progress == []
  {
    AppState(false, B2, 0, 0, today, None, [SampleCurriculum], [])
  }

  /** `loadState`: empty storage is filled with (and yields) the default state; otherwise the stored state. */
  function LoadState(store: Storage, today: string): (r: (Storage, AppState))
    ensures r.0 == Some(r.1)
    ensures store.Some? ==> r.1 == store.value
    ensures store.None? ==> r.1 == DefaultState(today)
  {
    match store
    case None => var defaults := DefaultState(today); (Some(defaults), defaults)
    case Some(s) => (store, s)
  }

  /** Once something is stored, later loads neither change storage nor depend on the date. */
  lemma LoadStateStable(store: Storage, today: string, later: string)
    ensures var (stored, s) := LoadState(store, today);
      LoadState(stored, later) == (stored, s)
  {
  }

  /** A `Partial<AppState>`: `Some` for each field the update object carries. */
  datatype Partial = Partial(
    onboardingComplete: Option<bool>,
    currentLevel: Option<Level>,
    totalXp: Option<int>,
    streakDays: Option<int>,
    lastActiveDate: Option<string>,
    lastLesson: Option<Option<LastLesson>>,
    curriculums: Option<seq<Curriculum>>,
    progress: Option<seq<CurriculumProgress>>)

  const NoChange: Partial := Partial(None, None, None, None, None, None, None, None)

  /** `{ ...current, ...partial }`. */
  function Merge(s: AppState, p: Partial): (r: AppState)
    ensures r.onboardingComplete == p.onboardingComplete.GetOr(s.onboardingComplete)
    ensures r.currentLevel == p.currentLevel.GetOr(s.currentLevel)
    ensures r.totalXp == p.totalXp.GetOr(s.totalXp)
    ensures r.streakDays == p.streakDays.GetOr(s.streakDays)
    ensures r.lastActiveDate == p.lastActiveDate.GetOr(s.lastActiveDate)
    ensures r.lastLesson == p.lastLesson.GetOr(s.lastLesson)
    ensures r.curriculums == p.curriculums.GetOr(s.curriculums)
    ensures r.progress == p.progress.GetOr(s.progress)
  {
    AppState(
      p.onboardingComplete.GetOr(s.onboardingComplete),
      p.currentLevel.GetOr(s.currentLevel),
      p.totalXp.GetOr(s.totalXp),
      p.streakDays.GetOr(s.streakDays),
      p.lastActiveDate.GetOr(s.lastActiveDate),
      p.lastLesson.GetOr(s.lastLesson),
      p.curriculums.GetOr(s.curriculums),
      p.progress.GetOr(s.progress))
  }

  /** An empty update changes nothing, and applying the same update twice is applying it once. */
  lemma MergeLaws(s: AppState, p: Partial)
    ensures Merge(s, NoChange) == s
    ensures Merge(Merge(s, p), p) == Merge(s, p)
  {
  }

  /** `updateState`: load, override exactly the fields present, save, return. */
  function UpdateState(store: Storage, today: string, p: Partial): (r: (Storage, AppState))
    ensures r.0 == Some(r.1)
    ensures r.1 == Merge(LoadState(store, today).1, p)
  {
    var updated := Merge(LoadState(store, today).1, p);
    (Some(updated), updated)
  }

  /** `setLevel`: only the level changes. */
  function SetLevel(store: Storage, today: string, level: Level): (r: Storage)
    ensures r.Some? && r.value == LoadState(store, today).1.(currentLevel := level)
  {
    UpdateState(store, today, NoChange.(currentLevel := Some(level))).0
  }

  /** `completeOnboarding`: the level is set and onboarding marked complete; nothing else changes. */
  function CompleteOnboarding(store: Storage, today: string, level: Level): (r: Storage)
    ensures r.Some? && r.value == LoadState(store, today).1.(onboardingComplete := true, currentLevel := level)
  {
    UpdateState(store, today, NoChange.(onboardingComplete := Some(true), currentLevel := Some(level))).0
  }

  // ------------------------------------------------------------ curricula

  function CurriculumId(c: Curriculum): string { c.id }
  function ProgressId(p: CurriculumProgress): string { p.curriculumId }

  /** The predicates the store's `find`/`filter` calls test. */
  function IdIs(id: string): Curriculum -> bool { (c: Curriculum) => c.id == id }
  function IdIsNot(id: string): Curriculum -> bool { (c: Curriculum) => c.id != id }
  function ForCurriculum(id: string): CurriculumProgress -> bool { (p: CurriculumProgress) => p.curriculumId == id }
  function NotForCurriculum(id: string): CurriculumProgress -> bool { (p: CurriculumProgress) => p.curriculumId != id }

  predicate HasId(cs: seq<Curriculum>, id: string) {
    exists i :: 0 <= i < |cs| && cs[i].id == id
  }

  /** The upsert `addCurriculum` performs on the list: replace in place by id, or append. */
  function Upsert(cs: seq<Curriculum>, c: Curriculum): (r: seq<Curriculum>)
    ensures HasId(cs, c.id) ==> |r| == |cs|
    ensures HasId(cs, c.id) ==> forall i :: 0 <= i < |cs| && cs[i].id != c.id ==> r[i] == cs[i]
    ensures HasId(cs, c.id) ==> forall i :: 0 <= i < |cs| && cs[i].id == c.id ==> r[i] == c
    ensures !HasId(cs, c.id) ==> r == cs + [c]
  {
    if FindFirst(cs, IdIs(c.id)) >= 0 then
      seq(|cs|, i requires 0 <= i < |cs| => if cs[i].id == c.id then c else cs[i])
    else cs + [c]
  }

  /** After an upsert the curriculum is found by its id. */
  lemma UpsertThenFind(cs: seq<Curriculum>, c: Curriculum)
    ensures var r := Upsert(cs, c); var k := FindFirst(r, IdIs(c.id)); k >= 0 && r[k] == c
  {
    var r := Upsert(cs, c);
    if !HasId(cs, c.id) {
      assert IdIs(c.id)(r[|cs|]);
    } else {
      var i :| 0 <= i < |cs| && cs[i].id == c.id;
      assert IdIs(c.id)(r[i]);
    }
  }

  /** Curricula with other ids keep their relative order and contents. */
  lemma UpsertKeepsOthers(cs: seq<Curriculum>, c: Curriculum)
    ensures Filter(Upsert(cs, c), IdIsNot(c.id)) == Filter(cs, IdIsNot(c.id))
  {
    var r := Upsert(cs, c);
    if HasId(cs, c.id) {
      UpsertSameOthers(cs, r, c.id);
    } else {
      FilterAppend(cs, [c], IdIsNot(c.id));
      assert Filter([c], IdIsNot(c.id)) == [];
    }
  }

  /** Two lists that agree everywhere except on elements with `id` filter to the same list. */
  lemma {:induction false} UpsertSameOthers(a: seq<Curriculum>, b: seq<Curriculum>, id: string)
    requires |a| == |b|
    requires forall i :: 0 <= i < |a| ==> (a[i].id == id <==> b[i].id == id)
    requires forall i :: 0 <= i < |a| && a[i].id != id ==> a[i] == b[i]
    ensures Filter(a, IdIsNot(id)) == Filter(b, IdIsNot(id))
    decreases |a|
  {
    if a != [] {
      UpsertSameOthers(a[1..], b[1..], id);
    }
  }

  /** Upserting the same curriculum again changes nothing. */
  lemma UpsertIdempotent(cs: seq<Curriculum>, c: Curriculum)
    ensures Upsert(Upsert(cs, c), c) == Upsert(cs, c)
  {
    var r := Upsert(cs, c);
    assert HasId(r, c.id) by { UpsertThenFind(cs, c); }
    var r2 := Upsert(r, c);
    assert |r2| == |r|;
    forall i | 0 <= i < |r| ensures r2[i] == r[i] {
    }
  }

  /** Upserting keeps curriculum ids distinct. */
  lemma UpsertDistinct(cs: seq<Curriculum>, c: Curriculum)
    requires DistinctKeys(cs, CurriculumId)
    ensures DistinctKeys(Upsert(cs, c), CurriculumId)
  {
    var r := Upsert(cs, c);
    forall i, j | 0 <= i < j < |r| ensures CurriculumId(r[i]) != CurriculumId(r[j]) {
      if !HasId(cs, c.id) && j == |cs| {
        assert r[i] == cs[i];
      }
    }
  }

  /** Removing the id of a newly added curriculum gives back the original list. */
  lemma RemoveUndoesAdd(cs: seq<Curriculum>, c: Curriculum)
    requires !HasId(cs, c.id)
    ensures Filter(Upsert(cs, c), IdIsNot(c.id)) == cs
  {
    UpsertKeepsOthers(cs, c);
    FilterKeepsAll(cs, IdIsNot(c.id));
  }

  /** `addCurriculum`. */
  function AddCurriculum(store: Storage, today: string, c: Curriculum): (r: Storage)
    ensures r.Some?
    ensures var k := FindFirst(r.value.curriculums, IdIs(c.id)); k >= 0 && r.value.curriculums[k] == c
    ensures var s := LoadState(store, today).1;
      && Filter(r.value.curriculums, IdIsNot(c.id)) == Filter(s.curriculums, IdIsNot(c.id))
      && r.value == s.(curriculums := r.value.curriculums)
  {
    var s := LoadState(store, today).1;
    UpsertThenFind(s.curriculums, c);
    UpsertKeepsOthers(s.curriculums, c);
    Some(s.(curriculums := Upsert(s.curriculums, c)))
  }

  /**
   * The removal `removeCurriculum` performs on a state: the curriculum and its progress records go,
   * and what stays keeps its order (the survivors of any prefix are a prefix of the result).
   */
  function RemoveCurriculumFrom(s: AppState, id: string): (r: AppState)
    ensures forall i :: 0 <= i < |r.curriculums| ==> r.curriculums[i].id != id
    ensures forall i :: 0 <= i < |r.progress| ==> r.progress[i].curriculumId != id
    ensures forall c :: c in s.curriculums && c.id != id ==> c in r.curriculums
    ensures forall p :: p in s.progress && p.curriculumId != id ==> p in r.progress
    ensures forall c :: c in r.curriculums ==> c in s.curriculums
    ensures forall p :: p in r.progress ==> p in s.progress
    ensures r == s.(curriculums := r.curriculums, progress := r.progress)
    ensures forall pre :: pre <= s.curriculums ==> Filter(pre, IdIsNot(id)) <= r.curriculums
    ensures forall pre :: pre <= s.progress ==> Filter(pre, NotForCurriculum(id)) <= r.progress
  {
    var cs := Filter(s.curriculums, IdIsNot(id));
    var ps := Filter(s.progress, NotForCurriculum(id));
    assert forall i :: 0 <= i < |cs| ==> IdIsNot(id)(cs[i]);
    assert forall i :: 0 <= i < |ps| ==> NotForCurriculum(id)(ps[i]);
    assert forall pre :: pre <= s.curriculums ==> Filter(pre, IdIsNot(id)) <= cs by {
      forall pre | pre <= s.curriculums ensures Filter(pre, IdIsNot(id)) <= cs {
        assert s.curriculums == pre + s.curriculums[|pre|..];
        FilterAppend(pre, s.curriculums[|pre|..], IdIsNot(id));
      }
    }
    assert forall pre :: pre <= s.progress ==> Filter(pre, NotForCurriculum(id)) <= ps by {
      forall pre | pre <= s.progress ensures Filter(pre, NotForCurriculum(id)) <= ps {
        assert s.progress == pre + s.progress[|pre|..];
        FilterAppend(pre, s.progress[|pre|..], NotForCurriculum(id));
      }
    }
    s.(curriculums := cs, progress := ps)
  }

  /** Removal keeps the remaining curricula and records in their original order. */
  lemma RemoveKeepsOrder(s: AppState, id: string, before: seq<Curriculum>, after: seq<Curriculum>,
                         pb: seq<CurriculumProgress>, pa: seq<CurriculumProgress>)
    ensures s.curriculums == before + after ==>
      RemoveCurriculumFrom(s, id).curriculums == Filter(before, IdIsNot(id)) + Filter(after, IdIsNot(id))
    ensures s.progress == pb + pa ==>
      RemoveCurriculumFrom(s, id).progress == Filter(pb, NotForCurriculum(id)) + Filter(pa, NotForCurriculum(id))
  {
    FilterAppend(before, after, IdIsNot(id));
    FilterAppend(pb, pa, NotForCurriculum(id));
  }

  /** `removeCurriculum`. */
  function RemoveCurriculum(store: Storage, today: string, id: string): (r: Storage)
    ensures r.Some?
    ensures forall c :: c in r.value.curriculums ==> c.id != id
    ensures forall p :: p in r.value.progress ==> p.curriculumId != id
    ensures var s := LoadState(store, today).1;
      && (forall c :: c in s.curriculums && c.id != id ==> c in r.value.curriculums)
      && (forall p :: p in s.progress && p.curriculumId != id ==> p in r.value.progress)
      && r.value == s.(curriculums := r.value.curriculums, progress := r.value.progress)
    ensures var s := LoadState(store, today).1;
      && r.value.curriculums == Filter(s.curriculums, IdIsNot(id))
      && r.value.progress == Filter(s.progress, NotForCurriculum(id))
  {
    Some(RemoveCurriculumFrom(LoadState(store, today).1, id))
  }

  // ------------------------------------------------------------ progress

  /** `progress.find(p => p.curriculum_id === id)?.lessons[lessonId] ?? null`. */
  function LessonProgressIn(ps: seq<CurriculumProgress>, curriculumId: string, lessonId: string): (r: Option<LessonProgress>)
    ensures r.Some? ==>
      exists i :: 0 <= i < |ps| && ps[i].curriculumId == curriculumId && lessonId in ps[i].lessons && ps[i].lessons[lessonId] == r.value
    ensures (forall i :: 0 <= i < |ps| ==> ps[i].curriculumId != curriculumId) ==> r.None?
    ensures var k := FindFirst(ps, ForCurriculum(curriculumId));
      && (k >= 0 && lessonId in ps[k].lessons ==> r == Some(ps[k].lessons[lessonId]))
      && (k >= 0 && lessonId !in ps[k].lessons ==> r.None?)
  {
    var i := FindFirst(ps, ForCurriculum(curriculumId));
    if i < 0 then None
    else if lessonId in ps[i].lessons then Some(ps[i].lessons[lessonId])
    else None
  }

  /** `getLessonProgress`. */
  function GetLessonProgress(store: Storage, today: string, curriculumId: string, lessonId: string): (r: (Storage, Option<LessonProgress>))
    ensures r.0 == LoadState(store, today).0
    ensures r.1 == LessonProgressIn(LoadState(store, today).1.progress, curriculumId, lessonId)
  {
    var (stored, s) := LoadState(store, today);
    (stored, LessonProgressIn(s.progress, curriculumId, lessonId))
  }

  /** The entry `completeLesson` writes. */
  function CompletedEntry(xp: int, now: string): LessonProgress {
    LessonProgress(true, xp, Some(now))
  }

  /** The transition `completeLesson` performs on a loaded state. */
  function CompleteLessonIn(s: AppState, curriculumId: string, lessonId: string, xp: int, now: string): (r: AppState)
    ensures r.totalXp == s.totalXp + xp
    ensures LessonProgressIn(r.progress, curriculumId, lessonId) == Some(CompletedEntry(xp, now))
    ensures r == s.(progress := r.progress, totalXp := r.totalXp)
    ensures FindFirst(s.progress, ForCurriculum(curriculumId)) < 0 ==>
      r.progress == s.progress + [CurriculumProgress(curriculumId, map[lessonId := CompletedEntry(xp, now)])]
    ensures FindFirst(s.progress, ForCurriculum(curriculumId)) >= 0 ==> |r.progress| == |s.progress|
  {
    var entry := CompletedEntry(xp, now);
    var i := FindFirst(s.progress, ForCurriculum(curriculumId));
    var progress :=
      if i < 0 then s.progress + [CurriculumProgress(curriculumId, map[lessonId := entry])]
      else s.progress[i := s.progress[i].(lessons := s.progress[i].lessons[lessonId := entry])];
    FindFirstIs(progress, ForCurriculum(curriculumId), if i < 0 then |s.progress| else i);
    s.(progress := progress, totalXp := s.totalXp + xp)
  }

  /** Completing one lesson leaves every other lesson's progress as it was. */
  lemma CompleteLessonFrame(s: AppState, curriculumId: string, lessonId: string, xp: int, now: string,
                            otherCurriculum: string, otherLesson: string)
    requires otherCurriculum != curriculumId || otherLesson != lessonId
    ensures LessonProgressIn(CompleteLessonIn(s, curriculumId, lessonId, xp, now).progress, otherCurriculum, otherLesson)
         == LessonProgressIn(s.progress, otherCurriculum, otherLesson)
  {
    var ps := s.progress;
    var rs := CompleteLessonIn(s, curriculumId, lessonId, xp, now).progress;
    var i := FindFirst(ps, ForCurriculum(curriculumId));
    var entry := CompletedEntry(xp, now);
    if i < 0 {
      var added := CurriculumProgress(curriculumId, map[lessonId := entry]);
      assert rs == ps + [added];
      if otherCurriculum == curriculumId {
        FindFirstIs(rs, ForCurriculum(curriculumId), |ps|);
      } else {
        assert rs[..|ps|] == ps;
        FrameAppended(ps, rs, curriculumId, otherCurriculum);
      }
    } else {
      var updated := ps[i].(lessons := ps[i].lessons[lessonId := entry]);
      assert rs == ps[i := updated];
      if otherCurriculum == curriculumId {
        FindFirstIs(rs, ForCurriculum(curriculumId), i);
      } else {
        FrameUpdated(ps, rs, i, otherCurriculum);
      }
    }
  }

  /** Appending a record for another curriculum does not move the first record of this one. */
  lemma FrameAppended(ps: seq<CurriculumProgress>, rs: seq<CurriculumProgress>, added: string, id: string)
    requires |rs| == |ps| + 1 && rs[..|ps|] == ps && rs[|ps|].curriculumId == added && added != id
    ensures FindFirst(rs, ForCurriculum(id)) == FindFirst(ps, ForCurriculum(id))
  {
    var k := FindFirst(ps, ForCurriculum(id));
    assert forall j :: 0 <= j < |ps| ==> rs[j] == ps[j];
    assert !ForCurriculum(id)(rs[|ps|]);
    FindFirstIs(rs, ForCurriculum(id), k);
  }

  /** Rewriting the lessons of record i keeps every curriculum's first record where it was. */
  lemma FrameUpdated(ps: seq<CurriculumProgress>, rs: seq<CurriculumProgress>, i: nat, id: string)
    requires |rs| == |ps| && i < |ps|
    requires forall j :: 0 <= j < |ps| ==> rs[j].curriculumId == ps[j].curriculumId
    requires forall j :: 0 <= j < |ps| && j != i ==> rs[j] == ps[j]
    requires ps[i].curriculumId != id
    ensures FindFirst(rs, ForCurriculum(id)) == FindFirst(ps, ForCurriculum(id))
    ensures var k := FindFirst(ps, ForCurriculum(id)); k >= 0 ==> rs[k] == ps[k]
  {
    var k := FindFirst(ps, ForCurriculum(id));
    FindFirstIs(rs, ForCurriculum(id), k);
  }

  /** Completing a lesson never duplicates a curriculum's progress record. */
  lemma CompleteLessonDistinct(s: AppState, curriculumId: string, lessonId: string, xp: int, now: string)
    requires DistinctKeys(s.progress, ProgressId)
    ensures DistinctKeys(CompleteLessonIn(s, curriculumId, lessonId, xp, now).progress, ProgressId)
  {
    var ps := s.progress;
    var rs := CompleteLessonIn(s, curriculumId, lessonId, xp, now).progress;
    if FindFirst(ps, ForCurriculum(curriculumId)) < 0 {
      forall i, j | 0 <= i < j < |rs| ensures ProgressId(rs[i]) != ProgressId(rs[j]) {
        if j == |ps| {
          assert !ForCurriculum(curriculumId)(ps[i]);
        } else {
          assert rs[i] == ps[i] && rs[j] == ps[j];
        }
      }
    } else {
      assert forall j :: 0 <= j < |ps| ==> rs[j].curriculumId == ps[j].curriculumId;
    }
  }

  /** `completeLesson`. */
  function CompleteLesson(store: Storage, today: string, curriculumId: string, lessonId: string, xp: int, now: string): (r: Storage)
    ensures r.Some?
    ensures var s := LoadState(store, today).1;
      && r.value.totalXp == s.totalXp + xp
      && LessonProgressIn(r.value.progress, curriculumId, lessonId) == Some(CompletedEntry(xp, now))
      && r.value == s.(progress := r.value.progress, totalXp := r.value.totalXp)
  {
    Some(CompleteLessonIn(LoadState(store, today).1, curriculumId, lessonId, xp, now))
  }

  /** `Math.round(completed / total * 100)` over exact rationals: round half up. */
  function RoundedPercent(completed: nat, total: nat): (r: int)
    requires total > 0
    ensures (r as real) - 0.5 <= 100.0 * (completed as real) / (total as real) < (r as real) + 0.5
    ensures 0 <= r
    ensures completed <= total ==> r <= 100
    ensures completed == total ==> r == 100
  {
    var r := (200 * completed + total) / (2 * total);
    assert r * (2 * total) <= 200 * completed + total < (r + 1) * (2 * total);
    PercentBounds(completed, total, r);
    r
  }

  lemma PercentBounds(completed: nat, total: nat, r: int)
    requires total > 0
    requires r * (2 * total) <= 200 * completed + total < (r + 1) * (2 * total)
    ensures (r as real) - 0.5 <= 100.0 * (completed as real) / (total as real) < (r as real) + 0.5
    ensures 0 <= r
    ensures completed <= total ==> r <= 100
    ensures completed == total ==> r == 100
  {
    var t, x := total as real, 100.0 * (completed as real);
    assert (r as real - 0.5) * t <= x < (r as real + 0.5) * t by {
      assert (r * (2 * total)) as real == 2.0 * (r as real) * t;
      assert ((r + 1) * (2 * total)) as real == 2.0 * (r as real + 1.0) * t;
    }
    BelowQuotient(r as real - 0.5, x, t);
    AboveQuotient(r as real + 0.5, x, t);
    if completed <= total && r > 100 {
      MulMono(101, r, 2 * total);
    }
    if completed == total && r < 100 {
      MulMono(r + 1, 100, 2 * total);
    }
  }

  lemma MulMono(a: int, b: int, c: nat)
    requires a <= b
    ensures a * c <= b * c
  {
  }

  lemma BelowQuotient(a: real, x: real, t: real)
    requires t > 0.0 && a * t <= x
    ensures a <= x / t
  {
  }

  lemma AboveQuotient(a: real, x: real, t: real)
    requires t > 0.0 && x < a * t
    ensures x / t < a
  {
  }

  /** `getCurriculumProgress`. */
  function GetCurriculumProgress(c: Curriculum, ps: seq<CurriculumProgress>): (r: int)
    ensures 0 <= r
    ensures FindFirst(ps, ForCurriculum(c.id)) < 0 ==> r == 0
    ensures TotalLessons(c) == 0 ==> r == 0
    ensures var k := FindFirst(ps, ForCurriculum(c.id));
      k >= 0 && TotalLessons(c) > 0 ==>
        var done, total := CompletedCount(ps[k]) as real, TotalLessons(c) as real;
        (r as real) - 0.5 <= 100.0 * done / total < (r as real) + 0.5
    ensures var k := FindFirst(ps, ForCurriculum(c.id));
      k >= 0 && CompletedCount(ps[k]) <= TotalLessons(c) ==> r <= 100
  {
    var k := FindFirst(ps, ForCurriculum(c.id));
    if k < 0 then 0
    else
      var totalLessons := TotalLessons(c);
      if totalLessons == 0 then 0
      else RoundedPercent(CompletedCount(ps[k]), totalLessons)
  }

  /**
   * The percentage is not capped: a record can hold completed lessons the curriculum no longer has
   * (an import may replace a curriculum by a shorter one under the same id).
   */
  lemma PercentCanExceedHundred()
    ensures var c := Curriculum("c", "C", A1, [Module("m", "M", [Unit("u", "U", [Lesson("a", "A", 10, Quiz)])])]);
      var done := LessonProgress(true, 10, None);
      GetCurriculumProgress(c, [CurriculumProgress("c", map["a" := done, "b" := done])]) == 200
  {
    var c := Curriculum("c", "C", A1, [Module("m", "M", [Unit("u", "U", [Lesson("a", "A", 10, Quiz)])])]);
    var done := LessonProgress(true, 10, None);
    var cp := CurriculumProgress("c", map["a" := done, "b" := done]);
    var m := c.modules;
    assert UnitLessons(m[0].units) == UnitLessons(m[0].units[..0]) + m[0].units[0].lessons;
    assert AllLessons(m) == AllLessons(m[..0]) + UnitLessons(m[0].units);
    assert TotalLessons(c) == 1;
    assert (set k | k in cp.lessons && cp.lessons[k].completed) == {"a", "b"};
    assert CompletedCount(cp) == 2;
    assert FindFirst([cp], ForCurriculum("c")) == 0;
  }

  /** `isLessonUnlocked` on a loaded state; an index outside the id list reads the key "undefined". */
  function IsLessonUnlockedIn(ps: seq<CurriculumProgress>, curriculumId: string, lessonIndex: int, allLessonIds: seq<string>): (r: bool)
    ensures lessonIndex == 0 ==> r
    ensures 1 <= lessonIndex <= |allLessonIds| ==>
      (r <==> exists lp :: LessonProgressIn(ps, curriculumId, allLessonIds[lessonIndex - 1]) == Some(lp) && lp.completed)
  {
    if lessonIndex == 0 then true
    else
      var prevId := if 1 <= lessonIndex <= |allLessonIds| then allLessonIds[lessonIndex - 1] else "undefined";
      var prev := LessonProgressIn(ps, curriculumId, prevId);
      prev.Some? && prev.value.completed
  }

  /** Completing lesson i unlocks lesson i + 1. */
  lemma CompleteUnlocksNext(s: AppState, curriculumId: string, ids: seq<string>, i: nat, xp: int, now: string)
    requires i < |ids|
    ensures IsLessonUnlockedIn(CompleteLessonIn(s, curriculumId, ids[i], xp, now).progress, curriculumId, i + 1, ids)
  {
  }

  /** Completing lessons never locks one that was unlocked. */
  lemma CompletionNeverLocks(s: AppState, curriculumId: string, lessonId: string, xp: int, now: string,
                             cid: string, index: int, ids: seq<string>)
    requires IsLessonUnlockedIn(s.progress, cid, index, ids)
    ensures IsLessonUnlockedIn(CompleteLessonIn(s, curriculumId, lessonId, xp, now).progress, cid, index, ids)
  {
    if index != 0 {
      var prevId := if 1 <= index <= |ids| then ids[index - 1] else "undefined";
      if cid != curriculumId || prevId != lessonId {
        CompleteLessonFrame(s, curriculumId, lessonId, xp, now, cid, prevId);
      }
    }
  }

  /** `isLessonUnlocked`: lesson 0 is answered before anything is loaded, so storage is left alone. */
  function IsLessonUnlocked(store: Storage, today: string, curriculumId: string, lessonIndex: int, allLessonIds: seq<string>): (r: (Storage, bool))
    ensures lessonIndex == 0 ==> r == (store, true)
    ensures lessonIndex != 0 ==> r.0 == LoadState(store, today).0
    ensures r.1 == IsLessonUnlockedIn(LoadState(store, today).1.progress, curriculumId, lessonIndex, allLessonIds)
  {
    if lessonIndex == 0 then (store, true)
    else
      var (stored, s) := LoadState(store, today);
      (stored, IsLessonUnlockedIn(s.progress, curriculumId, lessonIndex, allLessonIds))
  }

  /** `clearAllData`: the stored state is removed. */
  function ClearAllData(store: Storage): (r: Storage)
    ensures r.None?
  {
    None
  }
}

=== FILE: wav.dfy ===
/**
 * The worker's audio encoder: the 44-byte RIFF/WAVE header for mono 16-bit PCM
 * (`writeWavHeader`), the float-to-Int16 conversion (`floatTo16BitPCM`) and the
 * concatenation of the two done by `generateAudio`.
 *
 * Samples are modelled as reals rather than IEEE-754 single-precision floats.
 */
module Wav {
  import opened Wrappers
  import opened Bytes

  const HeaderSize: nat := 44
  /** The fixed output sample rate `generateAudio` passes to the header writer. */
  const OutputSampleRate: int := 24000

  /** The header fields a reader of the container recovers. */
  datatype HeaderFields = HeaderFields(
    riffSize: int,       // offset 4
    fmtSize: int,        // offset 16
    audioFormat: int,    // offset 20
    channels: int,       // offset 22
    sampleRate: int,     // offset 24
    byteRate: int,       // offset 28
    blockAlign: int,     // offset 32
    bitsPerSample: int,  // offset 34
    dataSize: int        // offset 40
  )

  /** The ASCII codes of the four chunk tags the header writes with `writeString`. */
  const RiffTag: seq<Byte> := [0x52, 0x49, 0x46, 0x46]
  const WaveTag: seq<Byte> := [0x57, 0x41, 0x56, 0x45]
  const FmtTag: seq<Byte> := [0x66, 0x6D, 0x74, 0x20]
  const DataTag: seq<Byte> := [0x64, 0x61, 0x74, 0x61]

  lemma TagsAreAscii()
    ensures Ascii("RIFF") == RiffTag && Ascii("WAVE") == WaveTag
    ensures Ascii("fmt ") == FmtTag && Ascii("data") == DataTag
  {
  }

  /** `writeWavHeader(numSamples, sampleRate)`: every numeric field goes through a little-endian setter. */
  function WavHeader(numSamples: nat, sampleRate: int): (h: seq<Byte>)
    ensures |h| == HeaderSize
    ensures h[0..4] == RiffTag && h[8..12] == WaveTag && h[12..16] == FmtTag && h[36..40] == DataTag
    ensures ReadLe32(h, 4) == (36 + 2 * numSamples) % Two32
    ensures ReadLe32(h, 16) == 16
    ensures ReadLe16(h, 20) == 1
    ensures ReadLe16(h, 22) == 1
    ensures ReadLe32(h, 24) == sampleRate % Two32
    ensures ReadLe32(h, 28) == (2 * sampleRate) % Two32
    ensures ReadLe16(h, 32) == 2
    ensures ReadLe16(h, 34) == 16
    ensures ReadLe32(h, 40) == (2 * numSamples) % Two32
  {
    var numChannels := 1;
    var bitsPerSample := 16;
    var blockAlign := numChannels * (bitsPerSample / 8);
    var byteRate := sampleRate * blockAlign;
    var dataSize := numSamples * blockAlign;
    assert blockAlign == 2 && byteRate == 2 * sampleRate && dataSize == 2 * numSamples;
    var riff := RiffTag + Le32(36 + dataSize) + WaveTag;
    var fmt := FmtTag + Le32(16) + Le16(1) + Le16(numChannels)
      + Le32(sampleRate) + Le32(byteRate) + Le16(blockAlign) + Le16(bitsPerSample);
    var data := DataTag + Le32(dataSize);
    RiffChunk(riff, 36 + dataSize);
    FmtChunk(fmt, numChannels, sampleRate, byteRate, blockAlign, bitsPerSample);
    var h := riff + fmt + data;
    assert h[0..4] == riff[0..4] && h[8..12] == riff[8..12];
    assert h[12..16] == fmt[0..4] && h[36..40] == data[0..4];
    FieldAt32(h, 4, 36 + dataSize);
    FieldAt32(h, 16, 16);
    FieldAt16(h, 20, 1);
    FieldAt16(h, 22, numChannels);
    FieldAt32(h, 24, sampleRate);
    FieldAt32(h, 28, byteRate);
    FieldAt16(h, 32, blockAlign);
    FieldAt16(h, 34, bitsPerSample);
    assert h[40..44] == data[4..8];
    FieldAt32(h, 40, dataSize);
    h
  }

  lemma RiffChunk(riff: seq<Byte>, size: int)
    requires riff == RiffTag + Le32(size) + WaveTag
    ensures |riff| == 12 && riff[0..4] == RiffTag && riff[4..8] == Le32(size) && riff[8..12] == WaveTag
  {
  }

  lemma FmtChunk(fmt: seq<Byte>, channels: int, rate: int, byteRate: int, align: int, bits: int)
    requires fmt == FmtTag + Le32(16) + Le16(1) + Le16(channels)
      + Le32(rate) + Le32(byteRate) + Le16(align) + Le16(bits)
    ensures |fmt| == 24 && fmt[0..4] == FmtTag
    ensures fmt[4..8] == Le32(16) && fmt[8..10] == Le16(1) && fmt[10..12] == Le16(channels)
    ensures fmt[12..16] == Le32(rate) && fmt[16..20] == Le32(byteRate)
    ensures fmt[20..22] == Le16(align) && fmt[22..24] == Le16(bits)
  {
  }

  /** Reading a 32-bit field back from the slice that holds it. */
  lemma FieldAt32(h: seq<Byte>, off: nat, v: int)
    requires off + 4 <= |h| && h[off..off + 4] == Le32(v)
    ensures ReadLe32(h, off) == v % Two32
  {
    Le32RoundTrip(v);
    var b := h[off..off + 4];
    assert ReadLe16(h, off) == ReadLe16(b, 0);
    assert ReadLe16(h, off + 2) == ReadLe16(b, 2);
  }

  lemma FieldAt16(h: seq<Byte>, off: nat, v: int)
    requires off + 2 <= |h| && h[off..off + 2] == Le16(v)
    ensures ReadLe16(h, off) == v % Two16
  {
    Le16RoundTrip(v);
    assert ReadLe16(h, off) == ReadLe16(h[off..off + 2], 0);
  }

  /** A reader of the canonical header: checks the four tags and returns the numeric fields. */
  function ParseHeader(h: seq<Byte>): (r: Option<HeaderFields>)
    ensures r.Some? ==> |h| >= HeaderSize
  {
    if |h| < HeaderSize then None
    else if h[0..4] != RiffTag || h[8..12] != WaveTag
         || h[12..16] != FmtTag || h[36..40] != DataTag then None
    else Some(HeaderFields(
      ReadLe32(h, 4), ReadLe32(h, 16), ReadLe16(h, 20), ReadLe16(h, 22),
      ReadLe32(h, 24), ReadLe32(h, 28), ReadLe16(h, 32), ReadLe16(h, 34),
      ReadLe32(h, 40)))
  }

  /** The header is readable and describes mono 16-bit PCM with the sizes of `numSamples` samples. */
  lemma HeaderRoundTrip(numSamples: nat, sampleRate: int)
    ensures ParseHeader(WavHeader(numSamples, sampleRate)) == Some(HeaderFields(
      (36 + 2 * numSamples) % Two32, 16, 1, 1,
      sampleRate % Two32, (2 * sampleRate) % Two32, 2, 16,
      (2 * numSamples) % Two32))
  {
  }

  // ---------------------------------------------------------------- PCM

  /** `Math.max(-1, Math.min(1, x))`. */
  function Clamp(x: real): (s: real)
    ensures -1.0 <= s <= 1.0
    ensures -1.0 <= x <= 1.0 ==> s == x
    ensures x < -1.0 ==> s == -1.0
    ensures 1.0 < x ==> s == 1.0
  {
    if 1.0 < x then 1.0 else if x < -1.0 then -1.0 else x
  }

  /** Truncation toward zero, as storing a fractional number into an `Int16Array` does. */
  function Trunc(r: real): (t: int)
    ensures 0.0 <= r ==> 0 <= t && t as real <= r < t as real + 1.0
    ensures r < 0.0 ==> t <= 0 && t as real - 1.0 < r <= t as real
  {
    if 0.0 <= r then r.Floor else -((-r).Floor)
  }

  /** One PCM value: clamp, then scale by 0x8000 below zero and by 0x7fff otherwise, then truncate. */
  function Quantize(x: real): (v: int)
    ensures -0x8000 <= v <= 0x7fff
    ensures x < 0.0 ==> v <= 0
    ensures 0.0 <= x ==> 0 <= v
    ensures Clamp(x) < 0.0 ==> (v - 1) as real < 32768.0 * Clamp(x) <= v as real
    ensures 0.0 <= Clamp(x) ==> v as real <= 32767.0 * Clamp(x) < (v + 1) as real
  {
    var s := Clamp(x);
    Trunc(if s < 0.0 then s * 32768.0 else s * 32767.0)
  }

  /** The asymmetric scaling reaches both ends of the Int16 range exactly. */
  lemma QuantizeLandmarks(x: real)
    ensures Quantize(-1.0) == -0x8000
    ensures Quantize(0.0) == 0
    ensures 1.0 <= x ==> Quantize(x) == 0x7fff
    ensures x <= -1.0 ==> Quantize(x) == -0x8000
  {
  }

  /** Inverse scaling of one PCM value back to a normalised sample. */
  function Dequantize(v: int): real {
    if v < 0 then v as real / 32768.0 else v as real / 32767.0
  }

  /** Quantisation loses less than one step: decoding recovers every in-range sample to within 1/32767. */
  lemma QuantizeWithinOneStep(x: real)
    requires -1.0 <= x <= 1.0
    ensures -1.0 / 32767.0 < Dequantize(Quantize(x)) - x < 1.0 / 32767.0
  {
    var v := Quantize(x);
    if x < 0.0 {
      assert v as real - 1.0 < x * 32768.0 <= v as real;
      if v < 0 {
        assert Dequantize(v) == v as real / 32768.0;
        assert 0.0 <= Dequantize(v) - x < 1.0 / 32768.0;
      } else {
        assert v == 0;
        assert -1.0 / 32768.0 < x;
      }
    } else {
      assert v as real <= x * 32767.0 < v as real + 1.0;
      assert Dequantize(v) == v as real / 32767.0;
    }
  }

  /** Larger samples never give smaller PCM values. */
  lemma QuantizeMonotone(x: real, y: real)
    requires x <= y
    ensures Quantize(x) <= Quantize(y)
  {
    var sx, sy := Clamp(x), Clamp(y);
    assert sx <= sy;
    if sx < 0.0 && sy < 0.0 {
      assert sx * 32768.0 <= sy * 32768.0;
    } else if 0.0 <= sx {
      assert sx * 32767.0 <= sy * 32767.0;
    }
  }

  /** The bytes of an `Int16Array` holding one quantised value per sample, little-endian. */
  function PcmBytes(xs: seq<real>): (r: seq<Byte>)
    ensures |r| == 2 * |xs|
  {
    if xs == [] then [] else PcmBytes(xs[..|xs| - 1]) + Le16(Quantize(xs[|xs| - 1]))
  }

  /** Reading the PCM data back as signed 16-bit values. */
  function DecodePcm(b: seq<Byte>): (vs: seq<int>)
    requires |b| % 2 == 0
    ensures |vs| == |b| / 2
  {
    if b == [] then [] else DecodePcm(b[..|b| - 2]) + [ReadInt16(b, |b| - 2)]
  }

  /** The i-th PCM value sits at byte offset 2i. */
  lemma {:induction false} PcmBytesAt(xs: seq<real>, i: nat)
    requires i < |xs|
    ensures ReadInt16(PcmBytes(xs), 2 * i) == Quantize(xs[i])
    decreases |xs|
  {
    var init := xs[..|xs| - 1];
    var b := PcmBytes(xs);
    assert b == PcmBytes(init) + Le16(Quantize(xs[|xs| - 1]));
    if i == |xs| - 1 {
      Int16RoundTrip(Quantize(xs[i]));
      assert ReadInt16(b, 2 * i) == ReadInt16(b[2 * i..], 0);
    } else {
      PcmBytesAt(init, i);
      assert ReadInt16(b, 2 * i) == ReadInt16(PcmBytes(init), 2 * i);
    }
  }

  /** Decoding the PCM data yields exactly the quantised samples, in order. */
  lemma {:induction false} PcmRoundTrip(xs: seq<real>)
    ensures DecodePcm(PcmBytes(xs)) == seq(|xs|, i requires 0 <= i < |xs| => Quantize(xs[i]))
    decreases |xs|
  {
    if xs != [] {
      var init := xs[..|xs| - 1];
      var b := PcmBytes(xs);
      assert b[..|b| - 2] == PcmBytes(init);
      PcmRoundTrip(init);
      PcmBytesAt(xs, |xs| - 1);
    }
  }

  /** `floatTo16BitPCM`: one Int16 per input sample, each the quantised sample. */
  method FloatTo16BitPCM(input: seq<real>) returns (output: seq<Byte>)
    ensures |output| == 2 * |input|
    ensures forall i :: 0 <= i < |input| ==> ReadInt16(output, 2 * i) == Quantize(input[i])
  {
    output := [];
    var i := 0;
    while i < |input|
      invariant 0 <= i <= |input|
      invariant |output| == 2 * i
      invariant forall k :: 0 <= k < i ==> ReadInt16(output, 2 * k) == Quantize(input[k])
    {
      var s := Clamp(input[i]);
      var v := Trunc(if s < 0.0 then s * 32768.0 else s * 32767.0);
      var prev := output;
      output := output + Le16(v);
      Int16RoundTrip(v);
      assert ReadInt16(output, 2 * i) == ReadInt16(output[2 * i..], 0);
      assert forall k :: 0 <= k < i ==> ReadInt16(output, 2 * k) == ReadInt16(prev, 2 * k);
      i := i + 1;
    }
  }

  /** The bytes `generateAudio` hands back: header for 24 kHz followed by the PCM data. */
  function EncodeWav(samples: seq<real>): (w: seq<Byte>)
    ensures |w| == HeaderSize + 2 * |samples|
    ensures w[..HeaderSize] == WavHeader(|samples|, OutputSampleRate)
    ensures w[HeaderSize..] == PcmBytes(samples)
  {
    WavHeader(|samples|, OutputSampleRate) + PcmBytes(samples)
  }

  /** A reader of the whole file: header fields and the signed PCM values after it. */
  function DecodeWav(w: seq<Byte>): Option<(HeaderFields, seq<int>)>
  {
    match ParseHeader(w)
    case None => None
    case Some(f) =>
      if (|w| - HeaderSize) % 2 != 0 then None else Some((f, DecodePcm(w[HeaderSize..])))
  }

  lemma SmallModulus(x: int)
    requires 0 <= x < Two32
    ensures x % Two32 == x
  {
  }

  /** The header reader looks at the first 44 bytes only. */
  lemma ParseHeaderReadsPrefix(w: seq<Byte>, h: seq<Byte>)
    requires |h| == HeaderSize && |w| >= HeaderSize && w[..HeaderSize] == h
    ensures ParseHeader(w) == ParseHeader(h)
  {
    assert forall k :: 0 <= k < HeaderSize ==> w[k] == h[k];
    assert w[0..4] == h[0..4] && w[8..12] == h[8..12] && w[12..16] == h[12..16] && w[36..40] == h[36..40];
  }

  /** Encoding then decoding recovers the header that describes the data and every quantised sample. */
  lemma WavRoundTrip(samples: seq<real>)
    requires 2 * |samples| + 36 < Two32
    ensures DecodeWav(EncodeWav(samples)) == Some((
      HeaderFields(36 + 2 * |samples|, 16, 1, 1, OutputSampleRate, 2 * OutputSampleRate, 2, 16, 2 * |samples|),
      seq(|samples|, i requires 0 <= i < |samples| => Quantize(samples[i]))))
  {
    var w := EncodeWav(samples);
    var n := |samples|;
    var f := HeaderFields(36 + 2 * n, 16, 1, 1, OutputSampleRate, 2 * OutputSampleRate, 2, 16, 2 * n);
    assert ParseHeader(w) == Some(f) by {
      HeaderRoundTrip(n, OutputSampleRate);
      ParseHeaderReadsPrefix(w, WavHeader(n, OutputSampleRate));
      SmallModulus(36 + 2 * n);
      SmallModulus(2 * n);
      SmallModulus(OutputSampleRate);
      SmallModulus(2 * OutputSampleRate);
    }
    assert DecodePcm(w[HeaderSize..]) == seq(n, i requires 0 <= i < n => Quantize(samples[i])) by {
      PcmRoundTrip(samples);
    }
  }
}

=== FILE: worker.dfy ===
/**
 * The text-to-speech worker: its one nullable model session (`kokoroTTS`), the
 * model initialisation with its progress reports, `generateAudio`, and the
 * `onmessage` dispatcher that turns every failure into a single ERROR reply.
 *
 * The speech library is an `Engine` of two pure functions supplied by the caller;
 * posting a message is appending a `Response` to the list a handler returns.
 */
module Worker {
  import opened Wrappers
  import opened Bytes
  import opened Wav

  /** The voice used when a GENERATE_AUDIO message carries no (or an empty) voice. */
  const DefaultVoice: string := "af_heart"

  datatype Request =
    | LoadModel(modelId: string, voice: Option<string>)
    | GenerateAudio(text: string, voice: Option<string>)
    | Terminate

  datatype Status = Loading | Generating

  datatype Response =
    | Progress(status: Status, progress: int, message: string)
    | ModelReady
    | AudioReady(wavBytes: seq<Byte>)
    | Error(error: string)
  {
    /** The replies that end the handling of one request. */
    predicate IsTerminal() { ModelReady? || AudioReady? || Error? }
  }

  /** An opaque handle to a loaded speech model. */
  datatype ModelHandle = ModelHandle(id: nat)

  /** One report the library sends to the download progress callback. */
  datatype LoaderEvent = LoaderEvent(status: string, progress: real)

  /** What importing the library and calling `from_pretrained` amounts to. */
  datatype LoadOutcome =
    | ImportFailed(error: string)                             // the dynamic import threw
    | LoadFailed(events: seq<LoaderEvent>, error: string)     // from_pretrained threw after these reports
    | Loaded(events: seq<LoaderEvent>, model: ModelHandle)    // from_pretrained resolved after these reports

  /** What `generate(text, { voice })` amounts to. */
  datatype Synthesis =
    | Threw(error: string)        // the call threw
    | Undefined                   // it resolved to nothing
    | NotFloat32                  // `output.audio` is missing or not a Float32Array
    | Audio(samples: seq<real>)   // a Float32Array of samples

  /** The speech library, as the worker sees it. */
  datatype Engine = Engine(load: string -> LoadOutcome, generate: (ModelHandle, string, string) -> Synthesis)

  /**
   * The worker's state: the session, whether `self.close()` has run, and a count of
   * model acquisitions (`from_pretrained` calls) kept so the model can speak about reloading.
   */
  datatype WorkerState = WorkerState(session: Option<ModelHandle>, closed: bool, acquisitions: nat)

  const Fresh: WorkerState := WorkerState(None, false, 0)

  /** The progress replies an operation posted, and what it returned or threw. */
  datatype Outcome<T> = Outcome(posted: seq<Response>, result: Result<T>)

  /** `Math.round` for the download percentages: halves round up. */
  function Round(x: real): (n: int)
    ensures x - 0.5 < n as real <= x + 0.5
  {
    (x + 0.5).Floor
  }

  predicate ForwardsProgress(e: LoaderEvent) {
    e.status == "progress" && e.progress != 0.0
  }

  /** The library's reports forwarded by the progress callback: only truthy "progress" reports, rounded. */
  function DownloadProgress(evs: seq<LoaderEvent>): (r: seq<Response>)
    ensures |r| <= |evs|
    ensures forall i :: 0 <= i < |r| ==> r[i].Progress? && r[i].status == Loading && r[i].message == "Downloading model..."
  {
    if evs == [] then []
    else
      (if ForwardsProgress(evs[0]) then [Progress(Loading, Round(evs[0].progress), "Downloading model...")] else [])
      + DownloadProgress(evs[1..])
  }

  /** Forwarding is per report and order-preserving: the reports of a concatenation are concatenated. */
  lemma {:induction false} DownloadProgressAppend(a: seq<LoaderEvent>, b: seq<LoaderEvent>)
    ensures DownloadProgress(a + b) == DownloadProgress(a) + DownloadProgress(b)
    decreases |a|
  {
    if a == [] {
      assert a + b == b;
    } else {
      assert (a + b)[0] == a[0] && (a + b)[1..] == a[1..] + b;
      DownloadProgressAppend(a[1..], b);
    }
  }

  /** A single library report is forwarded, rounded, exactly when it is a truthy "progress" report. */
  lemma DownloadProgressSingle(e: LoaderEvent)
    ensures ForwardsProgress(e) ==> DownloadProgress([e]) == [Progress(Loading, Round(e.progress), "Downloading model...")]
    ensures !ForwardsProgress(e) ==> DownloadProgress([e]) == []
  {
    assert [e][1..] == [];
  }

  /** `initializeKokoro`: reports 5, then the download reports, then 100 once the model is loaded. */
  function InitializeKokoro(modelId: string, engine: Engine): (r: Outcome<ModelHandle>)
    ensures forall i :: 0 <= i < |r.posted| ==> r.posted[i].Progress? && r.posted[i].status == Loading
    ensures r.result.Ok? <==> engine.load(modelId).Loaded?
    ensures r.result.Ok? ==> r.result.value == engine.load(modelId).model
    ensures r.result.Ok? ==>
      && |r.posted| >= 2
      && r.posted[0] == Progress(Loading, 5, "Loading TTS model...")
      && r.posted[|r.posted| - 1] == Progress(Loading, 100, "Model loaded!")
    ensures engine.load(modelId).ImportFailed? ==> r.posted == [] && r.result == Err(engine.load(modelId).error)
    ensures engine.load(modelId).LoadFailed? ==> r.result == Err(engine.load(modelId).error)
    ensures !engine.load(modelId).ImportFailed? ==>
      var forwarded := [Progress(Loading, 5, "Loading TTS model...")] + DownloadProgress(engine.load(modelId).events);
      r.posted == if r.result.Ok? then forwarded + [Progress(Loading, 100, "Model loaded!")] else forwarded
  {
    var start := [Progress(Loading, 5, "Loading TTS model...")];
    match engine.load(modelId)
    case ImportFailed(e) => Outcome([], Err(e))
    case LoadFailed(evs, e) => Outcome(start + DownloadProgress(evs), Err(e))
    case Loaded(evs, m) => Outcome(start + DownloadProgress(evs) + [Progress(Loading, 100, "Model loaded!")], Ok(m))
  }

  /** `generateAudio`: one `generate` call on the loaded session, then WAV encoding at 24 kHz. */
  function GenerateAudioOp(session: Option<ModelHandle>, text: string, voice: string, engine: Engine): (r: Outcome<seq<Byte>>)
    ensures session.None? ==> r == Outcome([], Err("Model not loaded"))
    ensures forall i :: 0 <= i < |r.posted| ==> r.posted[i].Progress? && r.posted[i].status == Generating
    ensures session.Some? ==> |r.posted| > 0 && r.posted[0].progress == 10
    ensures r.result.Ok? <==> session.Some? && engine.generate(session.value, text, voice).Audio?
    ensures r.result.Ok? ==>
      var samples := engine.generate(session.value, text, voice).samples;
      && |r.result.value| == HeaderSize + 2 * |samples|
      && r.result.value[..HeaderSize] == WavHeader(|samples|, OutputSampleRate)
      && r.result.value[HeaderSize..] == PcmBytes(samples)
      && |r.posted| == 3 && r.posted[1].progress == 90 && r.posted[2].progress == 100
    ensures r.result.Err? && session.Some? ==> |r.posted| == 1
    ensures session.Some? ==>
      var out := engine.generate(session.value, text, voice);
      && (out.Threw? ==> r.result == Err(out.error))
      && (out.Undefined? ==> r.result == Err("Kokoro.generate returned undefined"))
      && (out.NotFloat32? ==> r.result == Err("Invalid audio samples"))
  {
    if session.None? then Outcome([], Err("Model not loaded"))
    else
      var started := [Progress(Generating, 10, "Generating speech...")];
      match engine.generate(session.value, text, voice)
      case Threw(e) => Outcome(started, Err(e))
      case Undefined => Outcome(started, Err("Kokoro.generate returned undefined"))
      case NotFloat32 => Outcome(started, Err("Invalid audio samples"))
      case Audio(samples) =>
        Outcome(started + [Progress(Generating, 90, "Converting to WAV..."), Progress(Generating, 100, "Audio ready!")],
                Ok(EncodeWav(samples)))
  }

  /** `message.voice || "af_heart"`: an absent or empty voice falls back to the default. */
  function VoiceOrDefault(voice: Option<string>): (v: string)
    ensures v != ""
    ensures voice.Some? && voice.value != "" ==> v == voice.value
    ensures voice.None? || voice.value == "" ==> v == "af_heart"
  {
    if voice.None? || voice.value == "" then DefaultVoice else voice.value
  }

  /** The replies of one handled request: progress reports followed by exactly one terminal reply. */
  predicate OneReply(rs: seq<Response>) {
    && |rs| > 0
    && rs[|rs| - 1].IsTerminal()
    && forall i :: 0 <= i < |rs| - 1 ==> rs[i].Progress?
  }

  /** The `onmessage` handler for one message. */
  function Handle(w: WorkerState, req: Request, engine: Engine): (r: (WorkerState, seq<Response>))
    ensures req.Terminate? ==> r.0.session.None? && r.0.closed && r.1 == []
    ensures !req.Terminate? ==> OneReply(r.1) && r.0.closed == w.closed
    ensures req.GenerateAudio? ==> r.0 == w
    ensures r.0.session != w.session ==> req.Terminate? || (req.LoadModel? && r.0.session.Some?)
    ensures w.acquisitions <= r.0.acquisitions
  {
    match req
    case LoadModel(modelId, _) =>
      var acquisitions := if engine.load(modelId).ImportFailed? then w.acquisitions else w.acquisitions + 1;
      var init := InitializeKokoro(modelId, engine);
      (match init.result
       case Ok(m) => (w.(session := Some(m), acquisitions := acquisitions), init.posted + [ModelReady])
       case Err(e) => (w.(acquisitions := acquisitions), init.posted + [Error(e)]))
    case GenerateAudio(text, voice) =>
      var gen := GenerateAudioOp(w.session, text, VoiceOrDefault(voice), engine);
      (match gen.result
       case Ok(bytes) => (w, gen.posted + [AudioReady(bytes)])
       case Err(e) => (w, gen.posted + [Error(e)]))
    case Terminate =>
      (w.(session := None, closed := true), [])
  }

  /** The worker's message loop: each message handled to completion; nothing is handled after TERMINATE. */
  function Run(w: WorkerState, reqs: seq<Request>, engine: Engine): (r: (WorkerState, seq<Response>))
    ensures w.closed ==> r == (w, [])
    ensures r.0.closed <==> w.closed || Terminate in reqs
    ensures w.acquisitions <= r.0.acquisitions
    decreases |reqs|
  {
    if reqs == [] || w.closed then (w, [])
    else
      var (w1, out1) := Handle(w, reqs[0], engine);
      var (w2, out2) := Run(w1, reqs[1..], engine);
      (w2, out1 + out2)
  }

  /** GENERATE_AUDIO without a session replies with the one error and nothing else. */
  lemma GenerateBeforeLoad(w: WorkerState, text: string, voice: Option<string>, engine: Engine)
    requires w.session.None?
    ensures Handle(w, GenerateAudio(text, voice), engine) == (w, [Error("Model not loaded")])
  {
    var gen := GenerateAudioOp(w.session, text, VoiceOrDefault(voice), engine);
    assert gen.posted == [] && gen.result == Err("Model not loaded");
    assert gen.posted + [Error("Model not loaded")] == [Error("Model not loaded")];
  }

  /** A successful generation: progress 10, 90, 100 and then the encoded audio. */
  lemma GenerateSucceeds(w: WorkerState, text: string, voice: Option<string>, engine: Engine)
    requires w.session.Some?
    requires engine.generate(w.session.value, text, VoiceOrDefault(voice)).Audio?
    ensures var samples := engine.generate(w.session.value, text, VoiceOrDefault(voice)).samples;
      Handle(w, GenerateAudio(text, voice), engine).1 == [
        Progress(Generating, 10, "Generating speech..."),
        Progress(Generating, 90, "Converting to WAV..."),
        Progress(Generating, 100, "Audio ready!"),
        AudioReady(WavHeader(|samples|, OutputSampleRate) + PcmBytes(samples))]
  {
  }

  /** A failed synthesis: the starting progress and one error; no audio is ever posted. */
  lemma GenerateFails(w: WorkerState, text: string, voice: Option<string>, engine: Engine)
    requires w.session.Some?
    requires !engine.generate(w.session.value, text, VoiceOrDefault(voice)).Audio?
    ensures var out := Handle(w, GenerateAudio(text, voice), engine).1;
      && |out| == 2 && out[0] == Progress(Generating, 10, "Generating speech...") && out[1].Error?
      && forall i :: 0 <= i < |out| ==> !out[i].AudioReady?
    ensures var syn := engine.generate(w.session.value, text, VoiceOrDefault(voice));
      var out := Handle(w, GenerateAudio(text, voice), engine).1;
      && (syn.Threw? ==> out[1] == Error(syn.error))
      && (syn.Undefined? ==> out[1] == Error("Kokoro.generate returned undefined"))
      && (syn.NotFloat32? ==> out[1] == Error("Invalid audio samples"))
  {
  }

  /** MODEL_READY is posted exactly when loading succeeded, and only after the 5 and 100 reports. */
  lemma LoadReplies(w: WorkerState, modelId: string, voice: Option<string>, engine: Engine)
    ensures var (w', out) := Handle(w, LoadModel(modelId, voice), engine);
      && (out[|out| - 1] == ModelReady <==> engine.load(modelId).Loaded?)
      && (engine.load(modelId).Loaded? ==>
            && |out| >= 3
            && out[0] == Progress(Loading, 5, "Loading TTS model...")
            && out[|out| - 2] == Progress(Loading, 100, "Model loaded!")
            && w'.session == Some(engine.load(modelId).model))
      && (!engine.load(modelId).Loaded? ==> w'.session == w.session && out[|out| - 1] == Error(engine.load(modelId).error))
      && (engine.load(modelId).ImportFailed? ==> out == [Error(engine.load(modelId).error)])
      && (!engine.load(modelId).ImportFailed? ==>
            out[1..|out| - 1] == DownloadProgress(engine.load(modelId).events) + (if engine.load(modelId).Loaded? then [Progress(Loading, 100, "Model loaded!")] else []))
  {
  }

  /** No reload guard: every LOAD_MODEL whose import succeeds acquires the model again. */
  lemma ReloadAcquiresAgain(w: WorkerState, modelId: string, engine: Engine)
    requires !w.closed && !engine.load(modelId).ImportFailed?
    ensures Run(w, [LoadModel(modelId, None), LoadModel(modelId, None)], engine).0.acquisitions == w.acquisitions + 2
  {
    var (w1, _) := Handle(w, LoadModel(modelId, None), engine);
    assert Run(w1, [LoadModel(modelId, None)], engine).0 == Handle(w1, LoadModel(modelId, None), engine).0;
  }

  /** After TERMINATE the worker is closed and every later message goes unanswered. */
  lemma TerminateIsFinal(w: WorkerState, rest: seq<Request>, engine: Engine)
    requires !w.closed
    ensures Run(w, [Terminate] + rest, engine) == (w.(session := None, closed := true), [])
  {
    var reqs := [Terminate] + rest;
    assert reqs != [] && reqs[0] == Terminate && reqs[1..] == rest;
    var w1 := w.(session := None, closed := true);
    assert Handle(w, Terminate, engine) == (w1, []);
    assert Run(w1, rest, engine) == (w1, []);
    var none: seq<Response> := [];
    assert Run(w, reqs, engine) == (w1, none + none);
    assert none + none == none;
  }

  /** Every AUDIO_READY in a stream of replies comes after some MODEL_READY. */
  predicate ReadyBeforeAudio(out: seq<Response>) {
    forall i :: 0 <= i < |out| && out[i].AudioReady? ==> exists j :: 0 <= j < i && out[j].ModelReady?
  }

  /** Without a session at the start, audio is only ever posted after the model was reported ready. */
  lemma {:induction false} AudioOnlyAfterReady(w: WorkerState, reqs: seq<Request>, engine: Engine)
    requires w.session.None?
    ensures ReadyBeforeAudio(Run(w, reqs, engine).1)
    decreases |reqs|
  {
    if reqs != [] && !w.closed {
      var r1 := Handle(w, reqs[0], engine);
      var w1, out1 := r1.0, r1.1;
      var out2 := Run(w1, reqs[1..], engine).1;
      var out := out1 + out2;
      assert Run(w, reqs, engine).1 == out;
      if w1.session.None? {
        AudioOnlyAfterReady(w1, reqs[1..], engine);
      }
      forall i | 0 <= i < |out| && out[i].AudioReady?
        ensures exists j :: 0 <= j < i && out[j].ModelReady?
      {
        if i < |out1| {
          assert false;
        } else if w1.session.Some? {
          assert out[|out1| - 1].ModelReady?;
        } else {
          var k := i - |out1|;
          assert out2[k].AudioReady?;
          var j :| 0 <= j < k && out2[j].ModelReady?;
          assert out[j + |out1|].ModelReady?;
        }
      }
    }
  }

  /** From a fresh worker, no audio is ever posted before the model has been reported ready. */
  lemma FreshWorkerAudioAfterReady(reqs: seq<Request>, engine: Engine)
    ensures ReadyBeforeAudio(Run(Fresh, reqs, engine).1)
  {
    AudioOnlyAfterReady(Fresh, reqs, engine);
  }
}

=== FILE: wrappers.dfy ===
/** Failure-carrying datatypes shared by every module of the model. */
module Wrappers {

  /** A nullable value: `null`/`undefined` in the application is `None`. */
  datatype Option<+T> = None | Some(value: T) {
    function GetOr(default: T): T {
      match this
      case Some(v) => v
      case None => default
    }
  }

  /** The outcome of an operation that either yields a value or throws an error message. */
  datatype Result<+R> = Ok(value: R) | Err(error: string)
}
